=== FILE: README.md ===
# SmartDine client bookkeeping, modelled in Dafny

SmartDine is a restaurant app built from Lightning Web Components. Tables,
carts, orders and bills live in the store and are reached through server
calls. Between those calls, each page keeps its own state. This project
models that client-side state and proves what each page promises about it.

The model covers:

- **Cart engines.**
  - `AgentCart`: the agent console (manage.js).
  - `OrderApp`: the self-ordering page (orderApp.js).
  - `CustomerCart`: the customer page (user_Page.js).
  - All three keep lines keyed by menu-item id. A first add appends a line and a repeat add raises its quantity. A remove at quantity 1 deletes the line. Totals are recomputed after every change.
  - `CartLines` holds what the engines share. It defines the line, merge, decrement, the line sums, and an assumed model of the store's whole-list overwrite.
- **Event registry.** `PubSub` (pubsub.js) maps each event name to an ordered listener list. A fire calls every listener in order, and a listener that throws does not stop the rest.
- **Cashier console.** `CustomerAgent` (customerAgent.js) covers:
  - the customer-name check
  - the start-order guard
  - the simulated QR scan
  - the pending-payment queue
  - `Tables` holds the occupancy derivation and the guard shared with the agent console.
- **Dashboards.** `Kitchen` (chefpage.js) and `Service` (waiterPage.js) work over OrderItem statuses. `OrderItems` holds the status names.
- **Small helpers.**
  - `Email`: the address pattern.
  - `Bill`: bill rows and loading.
  - `OrderTotals`: subtotal, GST and grand total.
  - `Feedback`: ratings and star models.
  - `TableAdmin` and `MenuAdmin`: admin row actions and toasts.
  - `Toasts`: the shared currency touch-up.
  - `Menu`: the add-to-cart payload.
  - `AppWrapper`: the two-view wrapper.

Modelling conventions:

- **Money.** Amounts are integer paise. The GST figures in `OrderTotals` are exact reals.
- **Server calls.** A server call becomes a parameter that says how it went. A fetch that yields nothing or fails is `None`. An update's success is a `bool`. A created record's id is an `Option`.
- **Outgoing calls.** A function returns the calls a handler makes. Examples are a `CartUpdate` to sync or a `Submission` to send.
- **JSON fields.** A stored JSON field that is read back is `Json<T>`, with the cases `Absent | Malformed | Parsed(value)`.
- **Missing text.** A missing or empty text field is `""`. This matches the source's truthiness tests.
- **Randomness.** `Math.random` in the scan is a `pick` parameter.
- **Clock.** The payment queue's `new Date().toISOString()` timestamp is a `now` parameter.

## Model

| member | source | states |
|---|---|---|
| CartLines.Merge | force-app/main/default/lwc/manage/manage.js:184-197 | A repeat id raises only its first line's quantity by one and reprices that line. Otherwise one quantity-1 line is appended. The id's quantity rises by exactly 1, other ids' lines are unchanged, and the value rises by one unit's price. Unique ids, correct line totals and positive quantities are preserved. |
| CartLines.Decrement | force-app/main/default/lwc/manage/manage.js:202-215 | An absent id leaves the lines unchanged. Quantity above 1 loses one unit and is repriced. Quantity 1 deletes the line by splice. Other ids are untouched, and the id's quantity drops by exactly 1. Unique ids and correct line totals are preserved. |
| CartLines.MergeThenDecrement | force-app/main/default/lwc/manage/manage.js:179-215 | On a cart with correct line totals and positive quantities, adding an item and then removing one unit of it gives back the original cart. |
| CartLines.RepeatedAdds | force-app/main/default/lwc/manage/manage.js:184-197 | n adds of a new item append one line with quantity n and total price×n after the untouched earlier lines. No duplicate line is created. |
| CartLines.ConsistentTotalsSumToValue | force-app/main/default/lwc/manage/manage.js:235-237 | When every line total is price×quantity, the sum of the stored line totals equals the sum of price×quantity. |
| CartLines.RecomputeTotals | force-app/main/default/lwc/user_Page/user_Page.js:95-99 | Every line's total becomes quantity×price and every other field is kept. Lines that are already correct are returned unchanged. |
| CartLines.RecomputedValue | force-app/main/default/lwc/user_Page/user_Page.js:95-101 | Recomputing line totals never changes what the cart is worth. |
| AgentCart.CreateOrder | force-app/main/default/lwc/manage/manage.js:152-163 | Order mode starts iff a table is selected and has at least one customer. An empty table id counts as no selection. Each refusal gives its own message. |
| AgentCart.AddToCart | force-app/main/default/lwc/manage/manage.js:179-200 | Without a cart id the add is refused with "Cart not initialized" and nothing is sent. Otherwise the item is merged: the quantity rises by 1, other ids are unchanged, and unique ids are kept. The total equals the sum of line totals. A sound cart stays sound. The new cart is synced. |
| AgentCart.RemoveFromCart | force-app/main/default/lwc/manage/manage.js:202-215 | An unknown id leaves the cart unchanged and sends nothing. Otherwise the lines become the shared decrement, the total is the sum of line totals, other ids are unchanged, soundness is kept, and the new cart is synced. |
| AgentCart.UpdateQuantity | force-app/main/default/lwc/manage/manage.js:217-227 | A non-numeric, zero or negative quantity, or an unknown id, leaves the cart unchanged and sends nothing. Otherwise only the first line for the id gets the new quantity and total, and every other line is unchanged. The total is recomputed, the id's quantity changes by the difference, and the new cart is synced. |
| AgentCart.ClearCart | force-app/main/default/lwc/manage/manage.js:229-233 | No lines, total 0, and the cart id is kept. A loaded cart sends an update with no items and total 0. |
| AgentCart.WithLines | force-app/main/default/lwc/manage/manage.js:235-237 | The total is the sum of the line totals. When the lines are correct, it is what they are worth. |
| AgentCart.Sync | force-app/main/default/lwc/manage/manage.js:239-251 | Nothing is sent without a cart id. Otherwise the sync sends the cart id, the displayed total, and the lines with an id and a name (`SyncableLines`). |
| AgentCart.SyncableLinesConcat | force-app/main/default/lwc/manage/manage.js:241 | Filtering a concatenation is filtering each part and concatenating, so the kept lines stay in their original order. |
| AgentCart.SyncableLinesSingle | force-app/main/default/lwc/manage/manage.js:241 | A single line is sent iff it has an id and a name. |
| AgentCart.SyncableKeepsWellFormed | force-app/main/default/lwc/manage/manage.js:241 | When every line has an id and a name, the whole list is sent in order. |
| AgentCart.Checkout | force-app/main/default/lwc/manage/manage.js:253-260 | An empty cart is refused with "Cart is empty". Otherwise the cart is synced. |
| AgentCart.ConfirmPayment | force-app/main/default/lwc/manage/manage.js:270-291 | A successful checkout empties the cart and zeroes its total. A failed one keeps the cart. |
| AgentCart.LoadCartAsWritten | force-app/main/default/lwc/manage/manage.js:165-177 | A failed fetch keeps the cart. A load takes the cart id and the stored lines, and the total is the sum of the stored line totals. |
| AgentCart.StaleTotalSurvivesLoad | force-app/main/default/lwc/manage/manage.js:165-177 | One stored line at 100 paise with 2 units and a stored total of 100 loads as a cart showing 100 for goods worth 200. |
| AgentCart.LoadCart | force-app/main/default/lwc/manage/manage.js:165-177 | With line totals recomputed on load, each loaded line is the stored line except for its total. The cart is sound whatever totals were stored, and its total is the stored lines' worth. |
| AgentCart.LoadCartIgnoresStoredTotals | force-app/main/default/lwc/manage/manage.js:165-177 | With totals recomputed on load, two stored lists that differ only in their per-line totals load as the same cart. |
| AgentCart.CartTotalAsWritten | force-app/main/default/lwc/manage/manage.js:235-237 | Summing the raw `total` fields gives `NaN` iff some line has no `total` field. |
| AgentCart.CartTotalOfTotals | force-app/main/default/lwc/manage/manage.js:235-237 | When every line has a `total` field, the raw sum is the sum of the line totals. |
| AgentCart.LostUpdate | force-app/main/default/lwc/manage/manage.js:239-251 | Two consoles load the same cart, and each adds a different item and syncs. The first payload carries item b. The second payload omits b and holds only a's line. Under the store's whole-list overwrite, b is lost. |
| Email.ValidateEmailMatchesPattern | force-app/main/default/lwc/manage/manage.js:333-336 | Splitting at the first `@` accepts exactly the strings A@B.C, where A, B and C are non-empty runs without whitespace or `@`. |
| Email.IsEmailInvalid | force-app/main/default/lwc/orderApp/orderApp.js:281-282 | `isEmailInvalid` is true iff the address does not match A@B.C. The empty-address test is subsumed. The bill page (billComponent.js:181-196) uses the same pattern and the same getter. |
| OrderApp.LoadCart | force-app/main/default/lwc/orderApp/orderApp.js:64-78 | A missing cart leaves the page unchanged. A load keeps each stored line's total field as is. The displayed total is the lines' worth, not the stored totals. A malformed list stops the load after the cart id. |
| OrderApp.AddToCart | force-app/main/default/lwc/orderApp/orderApp.js:101-120 | Projected onto cart lines, the add is exactly the agent console's merge, so the quantity rises by 1 and ids stay unique. Every existing line's stored total is left as it was. The total is the cart's worth, the cart is marked existing, and a save is issued. |
| OrderApp.RemoveItem | force-app/main/default/lwc/orderApp/orderApp.js:123-136 | An unknown id does nothing and sends nothing. Otherwise `hasExistingCart` holds iff lines remain, and the total is the cart's worth. With unique ids the removal is exactly the agent console's decrement. |
| OrderApp.RemoveLines | force-app/main/default/lwc/orderApp/orderApp.js:125-131 | Quantity above 1 loses exactly one unit in place, and every other line is unchanged. At quantity 1 a line survives iff its id differs. No line for another id is added or changed. |
| OrderApp.RemoveLinesIsDecrement | force-app/main/default/lwc/orderApp/orderApp.js:126-131 | With unique ids, filtering out the id deletes exactly the one line that a splice deletes. |
| OrderApp.DropKeeps | force-app/main/default/lwc/orderApp/orderApp.js:130 | A line survives the filter iff its id differs. |
| OrderApp.DropConcat | force-app/main/default/lwc/orderApp/orderApp.js:130 | Filtering a concatenation is filtering each part and concatenating, so survivors keep their order. |
| OrderApp.WithLines | force-app/main/default/lwc/orderApp/orderApp.js:157-161 | The total is Σ price×quantity over the current lines, whatever per-line totals they carry. |
| OrderApp.NewOrder | force-app/main/default/lwc/orderApp/orderApp.js:138-155 | The page gets no lines, total 0, no order id and no bill section. A clearing update is sent iff there is a cart id. |
| OrderApp.Checkout | force-app/main/default/lwc/orderApp/orderApp.js:190-196 | An empty cart is refused with "Cart is empty" and the payment dialog stays closed. Otherwise the dialog opens. |
| OrderApp.ConfirmPayment | force-app/main/default/lwc/orderApp/orderApp.js:206-221 | The dialog closes and the cart is saved. A created order shows the bill and empties the cart to total 0. A failure changes nothing else. |
| OrderApp.Save | force-app/main/default/lwc/orderApp/orderApp.js:177-188 | Nothing is saved without a cart id. Otherwise the whole line list and the total are saved. |
| OrderApp.AddKeepsStaleStoredTotal | force-app/main/default/lwc/orderApp/orderApp.js:101-120 | A loaded one-unit line at 100, added to once, is saved with quantity 2 and stored total 100, while the page's total is 200. |
| OrderApp.PushedLineLoadsAsNaN | force-app/main/default/lwc/orderApp/orderApp.js:101-120 | Adding an item that is not yet in a cart with an id saves a new line without a `total` field. The agent console's total over the saved lines is then `NaN`. |
| CustomerCart.Recalculate | force-app/main/default/lwc/user_Page/user_Page.js:95-102 | After a recalculation every line total is quantity×price, the total is the cart's worth, and only totals changed. |
| CustomerCart.AddToCart | force-app/main/default/lwc/user_Page/user_Page.js:69-94 | The id's quantity rises by 1 and every line total is recomputed, so the page is settled even if it was not before. A page that was already settled keeps its other lines unchanged. Unique ids are kept. The resulting lines and total are saved once a cart id is set. |
| CustomerCart.Increment | force-app/main/default/lwc/user_Page/user_Page.js:105-114 | This requires the id to be in the cart, as the page does. The first line for the id gains exactly one unit and keeps a correct total. No other line changes, and the total is the sum of line totals. The resulting lines and total are saved once a cart id is set. |
| CustomerCart.DecrementLine | force-app/main/default/lwc/user_Page/user_Page.js:116-129 | This requires the id to be in the cart. It is the shared decrement: one unit fewer, or the line deleted at quantity 1. Other lines are unchanged, and a settled page stays settled. The resulting lines and total are saved once a cart id is set. |
| CustomerCart.DefaultStatuses | force-app/main/default/lwc/user_Page/user_Page.js:51-54 | A loaded line without a status gets "Pending". Every other field and every present status is kept. |
| CustomerCart.LoadCart | force-app/main/default/lwc/user_Page/user_Page.js:47-67 | A failed fetch keeps the page. A load takes the cart id. Each loaded line is the stored line, except that a missing status becomes "Pending" and the total is recomputed, so the totals are settled. A "Completed" cart marks the order placed. A malformed list stops the load after the cart id. |
| CustomerCart.Save | force-app/main/default/lwc/user_Page/user_Page.js:159-170 | Nothing is saved without a cart id. Otherwise the lines and the total are saved. |
| CustomerCart.PlaceOrder | force-app/main/default/lwc/user_Page/user_Page.js:172-176 | The cart is saved and the page is marked placed. The lines and the total are unchanged. |
| CustomerCart.HasItems | force-app/main/default/lwc/user_Page/user_Page.js:182-184 | True iff there is at least one line. |
| CustomerCart.IsStatusLocked | force-app/main/default/lwc/user_Page/user_Page.js:185-187 | Locked iff the status is Pending, Preparing or Prepared. |
| CustomerCart.FormatCartItems | force-app/main/default/lwc/user_Page/user_Page.js:140-147 | Each line is shown unchanged, flagged locked iff its status is locked. |
| CustomerCart.LoadedLinesWithoutStatusAreLocked | force-app/main/default/lwc/user_Page/user_Page.js:51-54 | A stored line without a status is shown locked after a load. A missing status and "Delivered" are not locked in themselves. |
| PubSub.Register | force-app/main/default/lwc/pubsub/pubsub.js:4-9 | The listener is appended to the event's list, and the list is created if needed. Earlier entries keep their order, duplicates are kept, and other events are unchanged. |
| PubSub.Unregister | force-app/main/default/lwc/pubsub/pubsub.js:11-17 | An unknown event is left alone. Otherwise exactly the entries with this callback and this receiver leave the event's list, and everything else stays. |
| PubSub.UnregisterAll | force-app/main/default/lwc/pubsub/pubsub.js:19-25 | All event names stay registered. Each list becomes its own filter: no entry bound to the receiver remains. |
| PubSub.WithoutReceiverKeeps | force-app/main/default/lwc/pubsub/pubsub.js:21-23 | An entry survives the filter iff it is bound to another receiver. |
| PubSub.WithoutReceiverConcat | force-app/main/default/lwc/pubsub/pubsub.js:21-23 | Filtering a concatenation is filtering each part and concatenating, so survivors keep their firing order. |
| PubSub.WithoutReceiverAbsent | force-app/main/default/lwc/pubsub/pubsub.js:21-23 | A list with no entry for the receiver is left unchanged. |
| PubSub.RegisterThenUnregister | force-app/main/default/lwc/pubsub/pubsub.js:4-17 | Registering a new pair for a known event and then unregistering it restores the registry. |
| PubSub.Fire | force-app/main/default/lwc/pubsub/pubsub.js:27-37 | Every registered listener is invoked once, in registration order, with the payload. Throwing listeners are caught and do not stop later ones. An unknown event invokes nothing, and the registry is only read. |
| Tables.WithOccupancy | force-app/main/default/lwc/customerAgent/customerAgent.js:72-75 | One row per table record, in order, marked occupied iff a customer is assigned, where an empty customer id counts as none. The agent console (manage.js:58-61) derives occupancy the same way. |
| Tables.FreeTables | force-app/main/default/lwc/customerAgent/customerAgent.js:306 | Exactly the unoccupied rows. |
| Tables.StartOrder | force-app/main/default/lwc/customerAgent/customerAgent.js:122-131 | An order starts iff a table is selected and has a customer. An empty table id counts as no selection. Each refusal is told apart. |
| CustomerAgent.SubmitCustomer | force-app/main/default/lwc/customerAgent/customerAgent.js:162-184 | A name that is missing or only whitespace is refused with "Customer name is required" before any call. Otherwise missing fields become "" and the name is sent untrimmed. |
| CustomerAgent.CreateOrder | force-app/main/default/lwc/customerAgent/customerAgent.js:122-151 | Navigation happens iff a table is selected and has a customer, and it carries the first customer. An empty table id counts as no selection. The two refusals give their own messages. |
| CustomerAgent.SimulateScan | force-app/main/default/lwc/customerAgent/customerAgent.js:304-321 | No tables is reported as such, and all-occupied is reported without a selection. Otherwise the selected table is an unoccupied table from the list. |
| CustomerAgent.HandlePaymentRequest | force-app/main/default/lwc/customerAgent/customerAgent.js:330-343 | A request for a known table appends one entry at the end of the queue, and earlier entries keep their order. The entry holds the bill id, the table id, the name of the first table row with that id, and the clock reading. A request for an unknown table changes nothing. |
| CustomerAgent.FindTableFirst | force-app/main/default/lwc/customerAgent/customerAgent.js:331 | `tables.find` returns the first row whose id matches. |
| CustomerAgent.ShowPaymentConfirmation | force-app/main/default/lwc/customerAgent/customerAgent.js:350-355 | The first queued request for the bill is selected. The dialog opens only if one exists, and the queue is untouched. |
| CustomerAgent.DropBill | force-app/main/default/lwc/customerAgent/customerAgent.js:366-368 | No request for the bill remains in the queue. |
| CustomerAgent.DropBillKeeps | force-app/main/default/lwc/customerAgent/customerAgent.js:366-368 | A queued request is kept iff it is for another bill. |
| CustomerAgent.DropBillConcat | force-app/main/default/lwc/customerAgent/customerAgent.js:366-368 | Filtering a concatenation is filtering each part and concatenating, so the queue keeps its order. |
| CustomerAgent.DropBillAbsent | force-app/main/default/lwc/customerAgent/customerAgent.js:366-368 | A queue with no request for the bill is left unchanged. |
| CustomerAgent.ConfirmPayment | force-app/main/default/lwc/customerAgent/customerAgent.js:357-377 | With no selection, or a failed status update, nothing changes. On success every request for the bill leaves the queue, the selection clears, the dialog closes, and `paymentConfirmed` fires with the bill id. |
| CustomerAgent.CancelPayment | force-app/main/default/lwc/customerAgent/customerAgent.js:379-382 | The selection clears and the dialog closes. The queue is untouched. |
| CustomerAgent.RequestSelectConfirm | force-app/main/default/lwc/customerAgent/customerAgent.js:330-377 | After a request for a known table is queued and selected, a successful confirm leaves no request for that bill. A failed confirm leaves the request queued. |
| CustomerAgent.Connect | force-app/main/default/lwc/customerAgent/customerAgent.js:54-63 | The console's handler is appended to the `paymentrequest` listeners. |
| CustomerAgent.Disconnect | force-app/main/default/lwc/customerAgent/customerAgent.js:64-66 | No listener bound to the console remains. |
| Kitchen.Initial | force-app/main/default/lwc/chefpage/chefpage.js:12-20 | The status filter starts at Pending, because the second declaration wins. The table filter starts at "All". |
| Kitchen.BadgeClass | force-app/main/default/lwc/chefpage/chefpage.js:141-151 | Prepared gives success, Preparing gives info, and anything else gives warning. |
| Kitchen.Decorate | force-app/main/default/lwc/chefpage/chefpage.js:50-69 | The "prepared" button is disabled iff the status is Prepared or Delivered. The two flags are never both set, and the badge agrees with `getStatusBadgeClass`. |
| Kitchen.Tally | force-app/main/default/lwc/chefpage/chefpage.js:42-61 | Counts start from zero and equal the number of Pending, Preparing and Prepared items. Their sum is at most the number of items. |
| Kitchen.CountsBounded | force-app/main/default/lwc/chefpage/chefpage.js:42-61 | The three counted statuses never add up to more than the item count. |
| Kitchen.FilterItems | force-app/main/default/lwc/chefpage/chefpage.js:108-122 | An item is shown iff its table matches, or no table is chosen, and its status matches. A status matches when no status is chosen, when it is equal, or when the choice is Prepared and the item is Delivered. The list is in reverse fetch order. |
| Kitchen.NoFilterKeepsAll | force-app/main/default/lwc/chefpage/chefpage.js:108-119 | With both filters on "All", every item is kept. |
| Kitchen.ExtractTableOptions | force-app/main/default/lwc/chefpage/chefpage.js:82-96 | "All" (value "") comes first, then one option per distinct non-empty table name, with label equal to value. |
| Kitchen.Distinct | force-app/main/default/lwc/chefpage/chefpage.js:83-88 | Each non-empty name appears exactly once. |
| Kitchen.DistinctFirstOccurrenceOrder | force-app/main/default/lwc/chefpage/chefpage.js:83-90 | Options follow the order in which each name first appears. |
| Kitchen.Refresh | force-app/main/default/lwc/chefpage/chefpage.js:36-96 | Counts are recomputed from the fetched list alone, and the current filters are applied. The options are "All" (value "") and then one per distinct table name of the fetched items, with caption equal to value. |
| Kitchen.SelectFilters | force-app/main/default/lwc/chefpage/chefpage.js:98-122 | A new selection re-filters the same items. The shown list is the kept items in reverse order, each kept item appearing once per occurrence. |
| Service.Initial | force-app/main/default/lwc/waiterPage/waiterPage.js:9-10 | The selected status starts at Prepared. |
| Service.Decorate | force-app/main/default/lwc/waiterPage/waiterPage.js:80-84 | `isPrepared` holds iff the status is Prepared and `isDelivered` holds iff it is Delivered. They are never both true. |
| Service.Load | force-app/main/default/lwc/waiterPage/waiterPage.js:75-88 | Fetched items replace the list, each decorated. A failed fetch keeps the list. |
| Service.FilteredItems | force-app/main/default/lwc/waiterPage/waiterPage.js:30-32 | Exactly the items whose status equals the selection. |
| Service.FilteredConcat | force-app/main/default/lwc/waiterPage/waiterPage.js:30-32 | The filter keeps the original order, because it distributes over concatenation. |
| Service.IsEmpty | force-app/main/default/lwc/waiterPage/waiterPage.js:34-36 | True iff no item has the selected status. |
| Service.ChangeStatus | force-app/main/default/lwc/waiterPage/waiterPage.js:38-40 | The selection changes and the items stay. |
| Bill.ToLine | force-app/main/default/lwc/billComponent/billComponent.js:71-79 | A non-numeric quantity or price becomes 0, and the row total is price×quantity. A missing name becomes "Unnamed Item". |
| Bill.ToLineIdempotent | force-app/main/default/lwc/billComponent/billComponent.js:71-79 | Normalising a normalised row changes nothing. |
| Bill.HeaderOf | force-app/main/default/lwc/billComponent/billComponent.js:57-62 | The header defaults are "Table", "Guest", "" and 0. |
| Bill.LoadBillPage | force-app/main/default/lwc/billComponent/billComponent.js:49-98 | A failed call or a null result gives no rows and an error, and keeps the bill. Missing items give no rows quietly. Unparseable items give no rows and a warning. Parsed items give the normalised rows. |
| Bill.LoadOrderBill | force-app/main/default/lwc/orderApp/orderApp.js:223-247 | A failed call gives no rows and an error. A null result is assigned first, so the bill is cleared as well. Unparseable items are reported as an error. Otherwise it matches the bill page. |
| Bill.BillLoadersAgree | force-app/main/default/lwc/orderApp/orderApp.js:223-247 | Both pages show the same header and rows. The kept bill differs iff the result is null and a bill was shown. The reports differ iff the items are unparseable. |
| OrderTotals.ItemTotal | force-app/main/default/lwc/orderComponent/orderComponent.js:39-42 | The line total is price×quantity, with a missing price or quantity counting as 0. |
| OrderTotals.SubTotal | force-app/main/default/lwc/orderComponent/orderComponent.js:51-53 | The loop's sum equals the sum of the line totals. It is non-negative when every line total is. |
| OrderTotals.Load | force-app/main/default/lwc/orderComponent/orderComponent.js:36-69 | GST is exactly 18% of the subtotal and the grand total is exactly 118% of it. The cart is empty iff there are no rows. The order's GST and grand total are sent to the store. |
| OrderTotals.Reset | force-app/main/default/lwc/orderComponent/orderComponent.js:134-140 | A reset gives no rows, all totals 0, and the empty flag set. |
| OrderTotals.ResetIsEmptyLoad | force-app/main/default/lwc/orderComponent/orderComponent.js:134-140 | A reset shows exactly what loading an empty cart shows. |
| OrderTotals.LoadAppend | force-app/main/default/lwc/orderComponent/orderComponent.js:50-58 | One more row raises the subtotal by its total, and both the grand total and the amount sent by 118% of it. |
| Feedback.SetRating | force-app/main/default/lwc/feedbackForm/feedbackForm.js:28-31 | Only this dish's rating changes. A non-numeric value counts as unrated. |
| Feedback.SetComment | force-app/main/default/lwc/feedbackForm/feedbackForm.js:33-36 | Only this dish's comment changes. |
| Feedback.SubmitFeedback | force-app/main/default/lwc/feedbackForm/feedbackForm.js:38-71 | A dish is a complaint iff its rating is missing or outside 1..5, and complaints come in dish order. Every other dish is submitted with a "" default comment. The form is marked submitted and cleared only when there is no complaint, and is otherwise unchanged. |
| Feedback.ErrorsAndSubmissionsPartition | force-app/main/default/lwc/feedbackForm/feedbackForm.js:41-61 | Every dish is either a complaint or a submission, never both. Submitted ratings lie in 1..5. |
| Feedback.StarClass | force-app/main/default/lwc/feedbackForm/feedbackForm.js:91-94 | Star n is filled iff n ≤ the rating, with unrated counting as 0. |
| Feedback.GenerateStarModels | force-app/main/default/lwc/feedbackForm/feedbackForm.js:95-104 | Each dish gets five stars valued 1..5 in order, classed as `getStarClass` says. Its id and name are kept. |
| Feedback.FilledStarsArePrefix | force-app/main/default/lwc/feedbackForm/feedbackForm.js:97-101 | The filled stars are exactly the first min(max(rating, 0), 5). |
| Feedback.HandleStarClick | force-app/main/default/lwc/feedbackForm/feedbackForm.js:106-111 | The clicked star becomes the rating, and that dish's stars are filled up to it. |
| TableAdmin.RowActions | force-app/main/default/lwc/manageTable/manageTable.js:42-52 | There are exactly three actions. Generate QR is first and Delete is last. The middle one is Enable iff the table is disabled, and Disable otherwise. |
| TableAdmin.RowActionsOfferOnlyTheToggle | force-app/main/default/lwc/manageTable/manageTable.js:46-50 | Enable is offered only for a disabled table and Disable only for an enabled one. The three action names are distinct. |
| TableAdmin.WithRowActions | force-app/main/default/lwc/manageTable/manageTable.js:38-59 | Every fetched table, in order, gets its action list. |
| TableAdmin.ToastMessage | force-app/main/default/lwc/manageTable/manageTable.js:181-186 | The message goes through the rupee touch-up. A message without `$` is unchanged. |
| Toasts.WithRupee | force-app/main/default/lwc/manageTable/manageTable.js:182-184 | Only the first `$` becomes ₹, so one `$` fewer remains. A message without `$` is unchanged. |
| Toasts.OnlyFirstDollarReplaced | force-app/main/default/lwc/manageTable/manageTable.js:183 | "$5 or $6" becomes "₹5 or $6". |
| Text.ReplaceFirstRemovesOne | force-app/main/default/lwc/manageTable/manageTable.js:183 | Replacing the first occurrence by text without that character removes exactly one occurrence. |
| Text.TrimEmptyIffBlank | force-app/main/default/lwc/customerAgent/customerAgent.js:171 | A string trims to nothing iff it is all whitespace. |
| MenuAdmin.ResetForm | force-app/main/default/lwc/menuListComponent/menuListComponent.js:155-162 | Every text field becomes "" and price and preparation time become 0. |
| MenuAdmin.HandleAdd | force-app/main/default/lwc/menuListComponent/menuListComponent.js:79-92 | The add is refused with no call iff the name, category or type is empty. |
| MenuAdmin.ResetFormIsRefused | force-app/main/default/lwc/menuListComponent/menuListComponent.js:79-83 | A freshly reset form cannot be submitted. |
| MenuAdmin.HandleRowAction | force-app/main/default/lwc/menuListComponent/menuListComponent.js:116-153 | Enable and disable send the row with only `IsDisabled__c` changed. Delete sends the id, and any other action sends nothing. |
| MenuAdmin.DisableThenEnable | force-app/main/default/lwc/menuListComponent/menuListComponent.js:121-132 | Enabling a disabled row gives back the enabled original. |
| MenuAdmin.ToastMessageAsWritten | force-app/main/default/lwc/menuListComponent/menuListComponent.js:164-169 | As written, the first `$` is replaced by a three-character string, so a message with `$` grows by 2. |
| MenuAdmin.ToastShowsMojibake | force-app/main/default/lwc/menuListComponent/menuListComponent.js:165-167 | "$40" is shown as "â‚¹40", with no rupee sign. |
| MenuAdmin.ToastMessage | force-app/main/default/lwc/menuListComponent/menuListComponent.js:164-169 | With the intended ₹, a message with `$` loses exactly one `$` and gains a ₹. |
| Menu.Initial | force-app/main/default/lwc/menuComponent/menuComponent.js:6-7 | The category starts at "All". |
| Menu.ChangeCategory | force-app/main/default/lwc/menuComponent/menuComponent.js:26-28 | The chosen value becomes the category. |
| Menu.Load | force-app/main/default/lwc/menuComponent/menuComponent.js:17-24 | Fetched items replace the list, and an error keeps it. |
| Menu.Find | force-app/main/default/lwc/menuComponent/menuComponent.js:33 | The result is None iff no item has the id. Otherwise it is the first item with it. |
| Menu.AddToCart | force-app/main/default/lwc/menuComponent/menuComponent.js:30-53 | Nothing is raised for an unknown id. Otherwise the payload is the first matching item's id, name and price. |
| Menu.AddToCartPicksListedItem | force-app/main/default/lwc/menuComponent/menuComponent.js:33-45 | With distinct ids, adding a listed item raises exactly that item. |
| AppWrapper.Initial | force-app/main/default/lwc/mobileAppWrapper/mobileAppWrapper.js:4-5 | The wrapper starts in the customer view with no table. |
| AppWrapper.Step | force-app/main/default/lwc/mobileAppWrapper/mobileAppWrapper.js:7-20 | Either start handler records the table and switches to the order view. Going back switches to the customer view and keeps the table. |
| AppWrapper.IsCustomerView | force-app/main/default/lwc/mobileAppWrapper/mobileAppWrapper.js:22-24 | True iff the view is "customer". |
| AppWrapper.IsOrderView | force-app/main/default/lwc/mobileAppWrapper/mobileAppWrapper.js:26-28 | True iff the view is "order". |
| AppWrapper.ExactlyOneView | force-app/main/default/lwc/mobileAppWrapper/mobileAppWrapper.js:4-28 | After any run of handlers exactly one view is shown. The order view is shown iff the last handler was a start. The selected table is what the last start carried, which can be undefined (`StartWithoutTable`). |
| AppWrapper.BackKeepsTable | force-app/main/default/lwc/mobileAppWrapper/mobileAppWrapper.js:18-20 | Going back shows the customer view and keeps the selected table. |

## Left out

- Server calls are outcome parameters. Their own logic runs in server code that is not part of this model. This covers the cart and bill calls, checkout, bill status, customer creation, table and menu CRUD, and the OrderItem status transitions (mark prepared, mark delivered, undo).
- Timing and concurrency are not modelled: promise ordering, `setTimeout`, `refreshApex` and wire re-delivery. Two writers are shown only through the whole-list, last-writer-wins update (`AgentCart.LostUpdate`).
- Toasts, navigation, `sessionStorage`, URL parsing, `window.open`, PDF download, sending e-mail and the QR image are not modelled, because they are I/O. A refusal's toast text is kept as the `Failure` message.
- Currency formatting (`Intl.NumberFormat`) is not modelled. Floating-point arithmetic is replaced by integer paise and exact reals.
- `JSON.parse` and `JSON.stringify` are not modelled character by character. A stored list is `Absent`, `Malformed` or `Parsed`.
- A cart line always has a price in the model. A line without one gives `NaN` totals in the source. As a result the sync filter's `price != null` test always passes.
- AgentCart.LoadCartAsWritten: a loaded line's stored `total` is an integer. A line saved by the order page has no `total` field, and the source's sum over it is `NaN`. That case is shown separately by `AgentCart.CartTotalAsWritten` and `OrderApp.PushedLineLoadsAsNaN`.
- CartLines.ApplyUpdate: the store's whole-list overwrite (`updateCartItems`) is server code and not part of this model. The model assumes it replaces the item list and the total. `AgentCart.LostUpdate` proves only what the clients send under that assumption.
- CustomerCart.Increment: requires the id to be in the cart. The source reads `.quantity` of the missing line and throws a `TypeError` (user_Page.js:107-108). Ids come from rendered rows, so the case is not modelled.
- CustomerCart.DecrementLine: requires the id to be in the cart, for the same reason (user_Page.js:118-119).
- Numbers read with `Number(...)`, `parseInt` or `|| 0` are integers or None. `NaN`, `0` and missing all read as the fallback.
- Kitchen.Tally: a status string that names an inherited object property would turn its counter into `NaN` in the source. The model counts only the three listed statuses.
- OrderTotals.Load: `gst` and `grandTotal` are exact reals, where the source rounds them to binary floating point.
- The bill header's formatted total and the bill page's back navigation are not modelled.
- `orderComponent`'s add-to-cart, quantity-change and place-order handlers only call the server and refresh. `placeOrder` also calls a function that is never imported. Only `resetCart` and the totals are modelled.
- manageTable.js's `handleSave`, table creation and QR generation are left out. `handleSave` sends the table's name where its id belongs, and the rest is server plumbing.
- The menu admin's inline edit (`handleSave`) only forwards the draft to the server, so it is left out.
- Wire error branches that only raise a toast are left out, apart from the list loads, which keep their previous list.
- Helper predicates and functions that only compute are not listed in the table. Examples are `CartLines.Value`, `Kitchen.Keep` and `Feedback.Errors`. The members that state properties about them are listed.

## Findings

| source | as written | input that shows it | evidently intended | confidence | as-written member | corrected member |
|---|---|---|---|---|---|---|
| force-app/main/default/lwc/menuListComponent/menuListComponent.js:166 | The first `$` is replaced by the three characters U+00E2 U+201A U+00B9 ("â‚¹"). These are the UTF-8 bytes of ₹ read as Windows-1252. | A toast message "$40" | "₹40". manageTable.js:183 makes the same replacement with U+20B9. | high, not executed | MenuAdmin.ToastMessageAsWritten (shown by MenuAdmin.ToastShowsMojibake) | MenuAdmin.ToastMessage |
| force-app/main/default/lwc/manage/manage.js:170-171 | `loadCart` totals the stored per-line `total` fields. The order page (orderApp.js:104-106) raises a line's quantity without updating its stored total, and it pushes new lines with no `total` at all. | A stored line {price 100, quantity 1, total 100}. The order page adds it once and saves {quantity 2, total 100}. The console then loads it. Second input: the order page adds a new item and saves a line with no `total` (orderApp.js:108-114). The console's sum is then `NaN`. | The console should show the lines' worth (200 in the first case, the new item's price in the second), as the customer page does by recomputing totals on load (user_Page.js:95-101). | medium, not executed | AgentCart.LoadCartAsWritten (shown by AgentCart.StaleTotalSurvivesLoad and OrderApp.AddKeepsStaleStoredTotal); AgentCart.CartTotalAsWritten (shown by OrderApp.PushedLineLoadsAsNaN) | AgentCart.LoadCart (with AgentCart.LoadCartIgnoresStoredTotals) |

=== FILE: app_wrapper.dfy ===
/** The mobile wrapper (mobileAppWrapper.js): a two-view state machine that
    switches from the customer view to the order view for a table and back. */
module AppWrapper {
  import opened Wrappers

  const CustomerView: string := "customer"
  const OrderView: string := "order"

  datatype Wrapper = Wrapper(currentView: string, selectedTableId: Option<string>)

  /** The handlers: `startOrderForTable` (public), `handleStartOrder` (from
      the child's event) and `handleBackToCustomer`. A start whose argument or
      `detail.tableId` is undefined carries `None`. */
  datatype Event = StartOrderForTable(tableId: Option<string>) | StartOrder(tableId: Option<string>) | BackToCustomer

  function Initial(): (w: Wrapper)
    ensures w.currentView == CustomerView && w.selectedTableId.None?
  {
    Wrapper(CustomerView, None)
  }

  /** One handler: starting an order records the table and shows the order
      view; going back shows the customer view and keeps the table. */
  function Step(w: Wrapper, e: Event): (r: Wrapper)
    ensures e.StartOrderForTable? || e.StartOrder? ==> r == Wrapper(OrderView, e.tableId)
    ensures e.BackToCustomer? ==> r == w.(currentView := CustomerView)
  {
    match e
    case StartOrderForTable(t) => Wrapper(OrderView, t)
    case StartOrder(t) => Wrapper(OrderView, t)
    case BackToCustomer => w.(currentView := CustomerView)
  }

  /** The state after a run of handlers from the initial state. */
  function Run(events: seq<Event>): Wrapper {
    if |events| == 0 then Initial() else Step(Run(events[..|events| - 1]), events[|events| - 1])
  }

  /** The `isCustomerView` getter. */
  function IsCustomerView(w: Wrapper): (r: bool)
    ensures r <==> w.currentView == CustomerView
  {
    w.currentView == CustomerView
  }

  /** The `isOrderView` getter. */
  function IsOrderView(w: Wrapper): (r: bool)
    ensures r <==> w.currentView == OrderView
  {
    w.currentView == OrderView
  }

  /** The position of the last start in a run of handlers, if any. */
  function LastStart(events: seq<Event>): (r: Option<nat>)
    ensures r.Some? ==> r.value < |events| && !events[r.value].BackToCustomer?
    ensures r.Some? ==> forall j :: r.value < j < |events| ==> events[j].BackToCustomer?
    ensures r.None? ==> forall j :: 0 <= j < |events| ==> events[j].BackToCustomer?
  {
    if |events| == 0 then None
    else if !events[|events| - 1].BackToCustomer? then Some(|events| - 1)
    else LastStart(events[..|events| - 1])
  }

  /** In every reachable state exactly one view is shown. The order view is
      shown iff some start has happened and no back since; the selected table
      is whatever the last start carried, which may be undefined. */
  lemma {:induction false} ExactlyOneView(events: seq<Event>)
    ensures IsCustomerView(Run(events)) != IsOrderView(Run(events))
    ensures IsOrderView(Run(events)) <==> |events| > 0 && !events[|events| - 1].BackToCustomer?
    ensures var k := LastStart(events);
            Run(events).selectedTableId == if k.Some? then events[k.value].tableId else None
  {
    if |events| > 0 {
      var init := events[..|events| - 1];
      ExactlyOneView(init);
      if events[|events| - 1].BackToCustomer? {
        var k := LastStart(init);
        if k.Some? {
          assert events[k.value] == init[k.value];
        }
      }
    }
  }

  /** A start without a table still shows the order view. */
  lemma StartWithoutTable()
    ensures IsOrderView(Run([StartOrder(None)])) && Run([StartOrder(None)]).selectedTableId.None?
  {
  }

  /** The last start decides the table: going back never changes it. */
  lemma {:induction false} BackKeepsTable(events: seq<Event>)
    ensures Run(events + [BackToCustomer]).selectedTableId == Run(events).selectedTableId
    ensures IsCustomerView(Run(events + [BackToCustomer]))
  {
    assert (events + [BackToCustomer])[..|events|] == events;
  }
}

=== FILE: bill.dfy ===
/** Loading a bill for display (billComponent.js and the bill section of
    orderApp.js). */
module Bill {
  import opened Wrappers

  /** One element of a bill's items JSON. `name` is "" when missing; a
      quantity or price is None when `Number(...)` of it is not a number. */
  datatype RawItem = RawItem(name: string, quantity: Option<int>, price: Option<int>)

  /** A displayed bill row. */
  datatype BillLine = BillLine(name: string, quantity: int, price: int, total: int)

  /** The bill record the store returns. Text fields are "" when missing. */
  datatype BillRecord = BillRecord(
    id: string,
    number: string,
    tableName: string,
    customerName: string,
    paymentMethod: string,
    itemCount: Option<int>,
    items: Json<seq<RawItem>>)

  /** The bill's header as displayed. */
  datatype Header = Header(number: string, tableName: string, customerName: string, paymentMethod: string, itemCount: int)

  /** A toast raised while loading: none, a data warning, or an error. */
  datatype Notice = Quiet | ParseWarning | LoadError

  /** The displayed bill: header, rows, and the loaded record's id. */
  datatype BillView = BillView(header: Header, lines: seq<BillLine>, billId: Option<string>)

  const UnnamedItem: string := "Unnamed Item"

  /** One row: a missing name becomes "Unnamed Item", a non-numeric quantity
      or price becomes 0, and the row total is price times quantity. */
  function ToLine(raw: RawItem): (r: BillLine)
    ensures r.name != ""
    ensures raw.name != "" ==> r.name == raw.name
    ensures raw.name == "" ==> r.name == UnnamedItem
    ensures r.quantity == raw.quantity.GetOr(0) && r.price == raw.price.GetOr(0)
    ensures r.total == r.price * r.quantity
  {
    var q := raw.quantity.GetOr(0);
    var p := raw.price.GetOr(0);
    BillLine(if raw.name == "" then UnnamedItem else raw.name, q, p, p * q)
  }

  function ToLines(items: seq<RawItem>): (r: seq<BillLine>)
    ensures |r| == |items| && forall i :: 0 <= i < |r| ==> r[i] == ToLine(items[i])
  {
    seq(|items|, i requires 0 <= i < |items| => ToLine(items[i]))
  }

  /** A displayed row read back as a raw item. */
  function AsRaw(l: BillLine): RawItem {
    RawItem(l.name, Some(l.quantity), Some(l.price))
  }

  /** Normalizing a row twice is normalizing it once. */
  lemma ToLineIdempotent(raw: RawItem)
    ensures ToLine(AsRaw(ToLine(raw))) == ToLine(raw)
  {
  }

  /** The header fields with the defaults `|| 'Table'`, `|| 'Guest'`, `|| ''`
      and `|| 0`. */
  function HeaderOf(rec: BillRecord): (h: Header)
    ensures h.tableName != "" && h.customerName != ""
    ensures rec.tableName != "" ==> h.tableName == rec.tableName
    ensures rec.customerName != "" ==> h.customerName == rec.customerName
    ensures h.number == rec.number && h.paymentMethod == rec.paymentMethod
    ensures h.itemCount == rec.itemCount.GetOr(0)
  {
    Header(rec.number,
           if rec.tableName == "" then "Table" else rec.tableName,
           if rec.customerName == "" then "Guest" else rec.customerName,
           rec.paymentMethod,
           rec.itemCount.GetOr(0))
  }

  /** How `getBillForOrder` came back: the call failed, it resolved to
      nothing, or it returned a record. */
  datatype Fetch = CallFailed | NoBill | Found(record: BillRecord)

  /** billComponent's `loadBill`: a failed call or no record is an error and
      no rows, with the previous bill kept (the empty result is rejected
      before anything is assigned); a missing items field gives no rows
      quietly; unparseable items give no rows and a warning, with the header
      already taken. */
  function LoadBillPage(v: BillView, fetched: Fetch): (r: (BillView, Notice))
    ensures !fetched.Found? ==> r == (v.(lines := []), LoadError)
    ensures fetched.Found? ==> r.0.header == HeaderOf(fetched.record) && r.0.billId == Some(fetched.record.id)
    ensures fetched.Found? ==> match fetched.record.items
      case Absent => r.0.lines == [] && r.1 == Quiet
      case Malformed => r.0.lines == [] && r.1 == ParseWarning
      case Parsed(items) => r.0.lines == ToLines(items) && r.1 == Quiet
  {
    match fetched
    case CallFailed => (v.(lines := []), LoadError)
    case NoBill => (v.(lines := []), LoadError)
    case Found(rec) =>
      var withHeader := BillView(HeaderOf(rec), [], Some(rec.id));
      match rec.items
      case Absent => (withHeader, Quiet)
      case Malformed => (withHeader, ParseWarning)
      case Parsed(items) => (withHeader.(lines := ToLines(items)), Quiet)
  }

  /** orderApp's `loadBill`: the same, except that unparseable items are
      reported as an error, and an empty result is stored as the bill before
      reading its name throws, so the previous bill is cleared. */
  function LoadOrderBill(v: BillView, fetched: Fetch): (r: (BillView, Notice))
    ensures fetched.CallFailed? ==> r == (v.(lines := []), LoadError)
    ensures fetched.NoBill? ==> r == (v.(lines := [], billId := None), LoadError)
    ensures fetched.Found? ==> r.0.header == HeaderOf(fetched.record) && r.0.billId == Some(fetched.record.id)
    ensures fetched.Found? ==> match fetched.record.items
      case Absent => r.0.lines == [] && r.1 == Quiet
      case Malformed => r.0.lines == [] && r.1 == LoadError
      case Parsed(items) => r.0.lines == ToLines(items) && r.1 == Quiet
  {
    match fetched
    case CallFailed => (v.(lines := []), LoadError)
    case NoBill => (v.(lines := [], billId := None), LoadError)
    case Found(rec) =>
      var withHeader := BillView(HeaderOf(rec), [], Some(rec.id));
      match rec.items
      case Absent => (withHeader, Quiet)
      case Malformed => (withHeader, LoadError)
      case Parsed(items) => (withHeader.(lines := ToLines(items)), Quiet)
  }

  /** The two pages show the same header and rows. They report unparseable
      items differently, and they disagree on the bill itself only for an
      empty result, which the order page clears and the bill page keeps. */
  lemma BillLoadersAgree(v: BillView, fetched: Fetch)
    ensures LoadBillPage(v, fetched).0.header == LoadOrderBill(v, fetched).0.header
    ensures LoadBillPage(v, fetched).0.lines == LoadOrderBill(v, fetched).0.lines
    ensures LoadBillPage(v, fetched).0.billId != LoadOrderBill(v, fetched).0.billId <==>
              fetched.NoBill? && v.billId.Some?
    ensures LoadBillPage(v, fetched).1 != LoadOrderBill(v, fetched).1 <==>
              fetched.Found? && fetched.record.items.Malformed?
  {
  }
}

=== FILE: cart_lines.dfy ===
/** The cart line list shared by the agent console (manage.js) and the
    customer page (user_Page.js): lines keyed by menu-item id, merged on add,
    decremented and deleted at quantity 1, and totalled. */
module CartLines {
  import opened Wrappers

  /** One entry of a cart's items JSON. `total` is the stored per-line total;
      `status` is "" when the stored entry carries none. */
  datatype Line = Line(id: string, name: string, price: int, quantity: int, total: int, status: string)

  /** The `addtocart` event payload `{id, name, price}` (prices in paise). */
  datatype Item = Item(id: string, name: string, price: int)

  /** The line a first add of `item` appends. */
  function NewLine(item: Item): Line {
    Line(item.id, item.name, item.price, 1, item.price, "")
  }

  /** `line` with a new quantity and its total recomputed. */
  function Reprice(line: Line, quantity: int): Line {
    line.(quantity := quantity, total := line.price * quantity)
  }

  /** A line's total is its price times its quantity. */
  predicate Consistent(line: Line) {
    line.total == line.price * line.quantity
  }

  predicate AllConsistent(lines: seq<Line>) {
    forall i :: 0 <= i < |lines| ==> Consistent(lines[i])
  }

  /** Every line's total is right and `total` is what the lines are worth. */
  predicate Settled(lines: seq<Line>, total: int) {
    AllConsistent(lines) && total == Value(lines)
  }

  predicate PositiveQuantities(lines: seq<Line>) {
    forall i :: 0 <= i < |lines| ==> lines[i].quantity >= 1
  }

  /** No two lines share an id. */
  predicate UniqueIds(lines: seq<Line>) {
    forall i, j :: 0 <= i < j < |lines| ==> lines[i].id != lines[j].id
  }

  predicate HasId(lines: seq<Line>, id: string) {
    exists i :: 0 <= i < |lines| && lines[i].id == id
  }

  /** Sum of the stored line totals (`reduce((t, item) => t + item.total, 0)`). */
  function SumTotals(lines: seq<Line>): int {
    if |lines| == 0 then 0 else lines[0].total + SumTotals(lines[1..])
  }

  /** What the lines are worth: the sum of price times quantity. */
  function Value(lines: seq<Line>): int {
    if |lines| == 0 then 0 else lines[0].price * lines[0].quantity + Value(lines[1..])
  }

  /** How many units of `id` the cart holds, over all its lines. */
  function QuantityOf(lines: seq<Line>, id: string): int {
    if |lines| == 0 then 0
    else (if lines[0].id == id then lines[0].quantity else 0) + QuantityOf(lines[1..], id)
  }

  /** The lines for every other id, in cart order. */
  function Others(lines: seq<Line>, id: string): seq<Line> {
    if |lines| == 0 then []
    else (if lines[0].id == id then [] else [lines[0]]) + Others(lines[1..], id)
  }

  /** `findIndex(i => i.id === id)`: the first line with `id`, or -1. */
  function FindIndex(lines: seq<Line>, id: string): (r: int)
    ensures -1 <= r < |lines|
    ensures r == -1 <==> !HasId(lines, id)
    ensures 0 <= r ==> lines[r].id == id && forall j :: 0 <= j < r ==> lines[j].id != id
  {
    if |lines| == 0 then -1
    else if lines[0].id == id then 0
    else
      var k := FindIndex(lines[1..], id);
      if k == -1 then -1 else k + 1
  }

  /** The first line with `id` is the unique index that carries it with no
      earlier match. */
  lemma FindIndexIs(lines: seq<Line>, id: string, k: int)
    requires 0 <= k < |lines| && lines[k].id == id
    requires forall j :: 0 <= j < k ==> lines[j].id != id
    ensures FindIndex(lines, id) == k
  {
  }

  lemma {:induction false} SumTotalsConcat(a: seq<Line>, b: seq<Line>)
    ensures SumTotals(a + b) == SumTotals(a) + SumTotals(b)
  {
    if |a| == 0 {
      assert a + b == b;
    } else {
      assert (a + b)[1..] == a[1..] + b;
      SumTotalsConcat(a[1..], b);
    }
  }

  lemma {:induction false} ValueConcat(a: seq<Line>, b: seq<Line>)
    ensures Value(a + b) == Value(a) + Value(b)
  {
    if |a| == 0 {
      assert a + b == b;
    } else {
      assert (a + b)[1..] == a[1..] + b;
      ValueConcat(a[1..], b);
    }
  }

  lemma {:induction false} QuantityOfConcat(a: seq<Line>, b: seq<Line>, id: string)
    ensures QuantityOf(a + b, id) == QuantityOf(a, id) + QuantityOf(b, id)
  {
    if |a| == 0 {
      assert a + b == b;
    } else {
      assert (a + b)[1..] == a[1..] + b;
      QuantityOfConcat(a[1..], b, id);
    }
  }

  lemma {:induction false} OthersConcat(a: seq<Line>, b: seq<Line>, id: string)
    ensures Others(a + b, id) == Others(a, id) + Others(b, id)
  {
    if |a| == 0 {
      assert a + b == b;
    } else {
      assert (a + b)[1..] == a[1..] + b;
      OthersConcat(a[1..], b, id);
    }
  }

  /** When every line's total is price times quantity, the stored totals sum
      to the cart's value. */
  lemma {:induction false} ConsistentTotalsSumToValue(lines: seq<Line>)
    requires AllConsistent(lines)
    ensures SumTotals(lines) == Value(lines)
  {
    if |lines| > 0 {
      ConsistentTotalsSumToValue(lines[1..]);
    }
  }

  /** Every measure of a cart splits around one line. */
  lemma SplitAround(lines: seq<Line>, k: int, x: Line, id: string)
    requires 0 <= k < |lines|
    ensures var r := lines[k := x];
      && SumTotals(r) == SumTotals(lines) - lines[k].total + x.total
      && Value(r) == Value(lines) - lines[k].price * lines[k].quantity + x.price * x.quantity
      && QuantityOf(r, id) == QuantityOf(lines, id) - QuantityOf([lines[k]], id) + QuantityOf([x], id)
      && Others(r, id) == Others(lines[..k], id) + Others([x], id) + Others(lines[k + 1..], id)
      && Others(lines, id) == Others(lines[..k], id) + Others([lines[k]], id) + Others(lines[k + 1..], id)
  {
    var pre, post := lines[..k], lines[k + 1..];
    assert lines == pre + [lines[k]] + post;
    assert lines[k := x] == pre + [x] + post;
    SumTotalsConcat(pre + [lines[k]], post);
    SumTotalsConcat(pre, [lines[k]]);
    SumTotalsConcat(pre + [x], post);
    SumTotalsConcat(pre, [x]);
    ValueConcat(pre + [lines[k]], post);
    ValueConcat(pre, [lines[k]]);
    ValueConcat(pre + [x], post);
    ValueConcat(pre, [x]);
    QuantityOfConcat(pre + [lines[k]], post, id);
    QuantityOfConcat(pre, [lines[k]], id);
    QuantityOfConcat(pre + [x], post, id);
    QuantityOfConcat(pre, [x], id);
    OthersConcat(pre + [lines[k]], post, id);
    OthersConcat(pre, [lines[k]], id);
    OthersConcat(pre + [x], post, id);
    OthersConcat(pre, [x], id);
  }

  /** Deleting line `k` (`splice(k, 1)`) takes exactly its contribution away. */
  lemma DeleteAt(lines: seq<Line>, k: int, id: string)
    requires 0 <= k < |lines|
    ensures var r := lines[..k] + lines[k + 1..];
      && SumTotals(r) == SumTotals(lines) - lines[k].total
      && Value(r) == Value(lines) - lines[k].price * lines[k].quantity
      && QuantityOf(r, id) == QuantityOf(lines, id) - QuantityOf([lines[k]], id)
      && Others(r, id) == Others(lines[..k], id) + Others(lines[k + 1..], id)
      && Others(lines, id) == Others(lines[..k], id) + Others([lines[k]], id) + Others(lines[k + 1..], id)
  {
    var pre, post := lines[..k], lines[k + 1..];
    assert lines == pre + [lines[k]] + post;
    SumTotalsConcat(pre + [lines[k]], post);
    SumTotalsConcat(pre, [lines[k]]);
    SumTotalsConcat(pre, post);
    ValueConcat(pre + [lines[k]], post);
    ValueConcat(pre, [lines[k]]);
    ValueConcat(pre, post);
    QuantityOfConcat(pre + [lines[k]], post, id);
    QuantityOfConcat(pre, [lines[k]], id);
    QuantityOfConcat(pre, post, id);
    OthersConcat(pre + [lines[k]], post, id);
    OthersConcat(pre, [lines[k]], id);
    OthersConcat(pre, post, id);
  }

  /** Appending one line adds exactly its contribution. */
  lemma Append(lines: seq<Line>, x: Line, id: string)
    ensures var r := lines + [x];
      && SumTotals(r) == SumTotals(lines) + x.total
      && Value(r) == Value(lines) + x.price * x.quantity
      && QuantityOf(r, id) == QuantityOf(lines, id) + QuantityOf([x], id)
      && Others(r, id) == Others(lines, id) + Others([x], id)
  {
    SumTotalsConcat(lines, [x]);
    ValueConcat(lines, [x]);
    QuantityOfConcat(lines, [x], id);
    OthersConcat(lines, [x], id);
  }

  /** Adding an item: an existing line for its id gains one unit and has its
      total recomputed; otherwise a line with quantity 1 is appended. */
  function Merge(lines: seq<Line>, item: Item): (r: seq<Line>)
    ensures HasId(lines, item.id) ==>
      var k := FindIndex(lines, item.id);
      && |r| == |lines|
      && r[k] == Reprice(lines[k], lines[k].quantity + 1)
      && forall j :: 0 <= j < |r| && j != k ==> r[j] == lines[j]
    ensures !HasId(lines, item.id) ==> r == lines + [NewLine(item)]
    ensures QuantityOf(r, item.id) == QuantityOf(lines, item.id) + 1
    ensures Others(r, item.id) == Others(lines, item.id)
    ensures Value(r) == Value(lines) + (if HasId(lines, item.id) then lines[FindIndex(lines, item.id)].price else item.price)
    ensures UniqueIds(lines) ==> UniqueIds(r)
    ensures AllConsistent(lines) ==> AllConsistent(r)
    ensures PositiveQuantities(lines) ==> PositiveQuantities(r)
  {
    var k := FindIndex(lines, item.id);
    if k >= 0 then
      MergeExisting(lines, item, k);
      lines[k := Reprice(lines[k], lines[k].quantity + 1)]
    else
      MergeNew(lines, item);
      lines + [NewLine(item)]
  }

  /** A repeat add: one more unit on line `k`, worth one more unit price. */
  lemma MergeExisting(lines: seq<Line>, item: Item, k: int)
    requires 0 <= k < |lines| && lines[k].id == item.id
    ensures var r := lines[k := Reprice(lines[k], lines[k].quantity + 1)];
      && QuantityOf(r, item.id) == QuantityOf(lines, item.id) + 1
      && Others(r, item.id) == Others(lines, item.id)
      && Value(r) == Value(lines) + lines[k].price
      && (UniqueIds(lines) ==> UniqueIds(r))
      && (AllConsistent(lines) ==> AllConsistent(r))
      && (PositiveQuantities(lines) ==> PositiveQuantities(r))
  {
    var q := lines[k].quantity + 1;
    RepriceKeeps(lines, k, item.id, q);
    SplitAround(lines, k, Reprice(lines[k], q), item.id);
    OneMoreUnit(lines[k].price, lines[k].quantity);
  }

  lemma OneMoreUnit(price: int, quantity: int)
    ensures price * (quantity + 1) == price * quantity + price
  {
  }

  /** A first add: a quantity-1 line appended, worth one unit price. */
  lemma MergeNew(lines: seq<Line>, item: Item)
    requires !HasId(lines, item.id)
    ensures var r := lines + [NewLine(item)];
      && QuantityOf(r, item.id) == QuantityOf(lines, item.id) + 1
      && Others(r, item.id) == Others(lines, item.id)
      && Value(r) == Value(lines) + item.price
      && (UniqueIds(lines) ==> UniqueIds(r))
      && (AllConsistent(lines) ==> AllConsistent(r))
      && (PositiveQuantities(lines) ==> PositiveQuantities(r))
  {
    var x := NewLine(item);
    Append(lines, x, item.id);
    assert Others([x], item.id) == [];
    assert QuantityOf([x], item.id) == 1;
    assert Value([x]) == item.price;
    var r := lines + [x];
    assert forall i :: 0 <= i < |lines| ==> r[i] == lines[i];
  }

  /** Removing one unit: a line with quantity above 1 loses one unit and has
      its total recomputed; otherwise the line is deleted; an absent id leaves
      the lines as they are. */
  function Decrement(lines: seq<Line>, id: string): (r: seq<Line>)
    ensures !HasId(lines, id) ==> r == lines
    ensures HasId(lines, id) ==>
      var k := FindIndex(lines, id);
      && (lines[k].quantity > 1 ==>
            && |r| == |lines|
            && r[k] == Reprice(lines[k], lines[k].quantity - 1)
            && forall j :: 0 <= j < |r| && j != k ==> r[j] == lines[j])
      && (lines[k].quantity <= 1 ==> r == lines[..k] + lines[k + 1..])
    ensures Others(r, id) == Others(lines, id)
    ensures HasId(lines, id) && PositiveQuantities(lines) ==> QuantityOf(r, id) == QuantityOf(lines, id) - 1
    ensures UniqueIds(lines) ==> UniqueIds(r)
    ensures AllConsistent(lines) ==> AllConsistent(r)
    ensures PositiveQuantities(lines) ==> PositiveQuantities(r)
  {
    var k := FindIndex(lines, id);
    if k < 0 then lines
    else if lines[k].quantity > 1 then
      RepriceKeeps(lines, k, id, lines[k].quantity - 1);
      lines[k := Reprice(lines[k], lines[k].quantity - 1)]
    else
      DeleteKeeps(lines, k, id);
      lines[..k] + lines[k + 1..]
  }

  /** Repricing a line of `id` changes only that id's quantity and keeps the
      cart's invariants. */
  lemma RepriceKeeps(lines: seq<Line>, k: int, id: string, q: int)
    requires 0 <= k < |lines| && lines[k].id == id
    ensures var r := lines[k := Reprice(lines[k], q)];
      && Others(r, id) == Others(lines, id)
      && QuantityOf(r, id) == QuantityOf(lines, id) - lines[k].quantity + q
      && (UniqueIds(lines) ==> UniqueIds(r))
      && (AllConsistent(lines) ==> AllConsistent(r))
      && (PositiveQuantities(lines) && q >= 1 ==> PositiveQuantities(r))
  {
    var x := Reprice(lines[k], q);
    SplitAround(lines, k, x, id);
    assert Others([x], id) == [] && Others([lines[k]], id) == [];
    assert QuantityOf([x], id) == q && QuantityOf([lines[k]], id) == lines[k].quantity;
  }

  /** Deleting a line of `id` takes away only that id's units and keeps the
      cart's invariants. */
  lemma DeleteKeeps(lines: seq<Line>, k: int, id: string)
    requires 0 <= k < |lines| && lines[k].id == id
    ensures var r := lines[..k] + lines[k + 1..];
      && Others(r, id) == Others(lines, id)
      && QuantityOf(r, id) == QuantityOf(lines, id) - lines[k].quantity
      && (UniqueIds(lines) ==> UniqueIds(r))
      && (AllConsistent(lines) ==> AllConsistent(r))
      && (PositiveQuantities(lines) ==> PositiveQuantities(r))
  {
    DeleteAt(lines, k, id);
    assert Others([lines[k]], id) == [];
    assert QuantityOf([lines[k]], id) == lines[k].quantity;
    DeleteKeepsInvariants(lines, k);
  }

  lemma DeleteKeepsInvariants(lines: seq<Line>, k: int)
    requires 0 <= k < |lines|
    ensures var r := lines[..k] + lines[k + 1..];
      && (UniqueIds(lines) ==> UniqueIds(r))
      && (AllConsistent(lines) ==> AllConsistent(r))
      && (PositiveQuantities(lines) ==> PositiveQuantities(r))
  {
    var r := lines[..k] + lines[k + 1..];
    assert forall i :: 0 <= i < |r| ==> r[i] == lines[if i < k then i else i + 1];
  }

  /** Recomputes every line's total as quantity times price (`recalculateCart`). */
  function RecomputeTotals(lines: seq<Line>): (r: seq<Line>)
    ensures |r| == |lines| && AllConsistent(r)
    ensures forall i :: 0 <= i < |r| ==> r[i].(total := lines[i].total) == lines[i]
    ensures AllConsistent(lines) ==> r == lines
  {
    seq(|lines|, i requires 0 <= i < |lines| => lines[i].(total := lines[i].quantity * lines[i].price))
  }

  /** Recomputing line totals does not change what the lines are worth. */
  lemma {:induction false} RecomputedValue(lines: seq<Line>)
    ensures Value(RecomputeTotals(lines)) == Value(lines)
  {
    if |lines| > 0 {
      RecomputedValue(lines[1..]);
      assert RecomputeTotals(lines)[1..] == RecomputeTotals(lines[1..]);
    }
  }

  /** Adding an item and then removing one unit of it gives back the cart. */
  lemma MergeThenDecrement(lines: seq<Line>, item: Item)
    requires AllConsistent(lines) && PositiveQuantities(lines)
    ensures Decrement(Merge(lines, item), item.id) == lines
  {
    var m := Merge(lines, item);
    var k := FindIndex(lines, item.id);
    if k >= 0 {
      FindIndexIs(m, item.id, k);
      assert m[k].quantity > 1;
      assert Reprice(m[k], m[k].quantity - 1) == lines[k];
    } else {
      FindIndexIs(m, item.id, |lines|);
      assert m[..|lines|] + m[|lines| + 1..] == lines;
    }
  }

  /** `n` successive adds. */
  function AddTimes(lines: seq<Line>, item: Item, n: nat): seq<Line> {
    if n == 0 then lines else Merge(AddTimes(lines, item, n - 1), item)
  }

  /** Adding the same new item `n` times leaves one line for it with quantity
      `n` and total price times `n`, after the untouched earlier lines. */
  lemma {:induction false} RepeatedAdds(lines: seq<Line>, item: Item, n: nat)
    requires n >= 1 && !HasId(lines, item.id)
    ensures AddTimes(lines, item, n) == lines + [Line(item.id, item.name, item.price, n, item.price * n, "")]
  {
    if n > 1 {
      RepeatedAdds(lines, item, n - 1);
      var prev := AddTimes(lines, item, n - 1);
      FindIndexIs(prev, item.id, |lines|);
    }
  }

  /** The cart record in the store: its items JSON, stored total and status. */
  datatype StoredCart = StoredCart(id: string, items: Json<seq<Line>>, totalAmount: int, status: string)

  /** The `updateCartItems` call: the whole item list and total for a cart. */
  datatype CartUpdate = CartUpdate(cartId: string, items: seq<Line>, total: int)

  /** The store applies an update by replacing the cart's item list and
      total outright, with no version check: the last write wins. */
  function ApplyUpdate(stored: StoredCart, u: CartUpdate): (r: StoredCart)
    ensures r.items == Parsed(u.items) && r.totalAmount == u.total
    ensures r.id == stored.id && r.status == stored.status
  {
    stored.(items := Parsed(u.items), totalAmount := u.total)
  }
}

=== FILE: customer_agent.dfy ===
/** The cashier / front-desk console (customerAgent.js): customer creation
    checks, starting an order, the simulated QR scan, and the local queue of
    pending payment requests with its confirmation handshake. */
module CustomerAgent {
  import opened Wrappers
  import opened Text
  import opened Tables
  import PubSub

  /** The customer form as submitted; absent fields are None. */
  datatype CustomerForm = CustomerForm(name: Option<string>, phone: Option<string>,
                                       email: Option<string>, orderInfo: Option<string>)

  /** The `createCustomer` call's arguments. */
  datatype CreateCustomer = CreateCustomer(name: string, phone: string, email: string,
                                           orderInfo: string, tableId: Option<string>)

  /** `handleSubmit`: absent fields default to "", and a name that trims to
      nothing is refused before any server call. The name is sent untrimmed. */
  function SubmitCustomer(form: CustomerForm, selectedTable: Option<string>): (r: Result<CreateCustomer>)
    ensures r.Failure? <==> IsBlank(form.name.GetOr(""))
    ensures r.Failure? ==> r.error == "Customer name is required"
    ensures r.Success? ==> r.value == CreateCustomer(form.name.value, form.phone.GetOr(""),
                                                      form.email.GetOr(""), form.orderInfo.GetOr(""),
                                                      selectedTable)
  {
    var name := form.name.GetOr("");
    TrimEmptyIffBlank(name);
    if Trim(name) == [] then Failure("Customer name is required")
    else Success(CreateCustomer(name, form.phone.GetOr(""), form.email.GetOr(""),
                                form.orderInfo.GetOr(""), selectedTable))
  }

  /** Where `handleCreateOrder` navigates: the order page for the table,
      with the first customer's details stored for it. */
  datatype OrderNavigation = OrderNavigation(tableId: string, tableName: string, customer: Customer)

  function CreateOrder(selectedTable: Option<string>, tableName: string, customers: seq<Customer>): (r: Result<OrderNavigation>)
    ensures r.Success? <==> selectedTable.Some? && selectedTable.value != "" && |customers| > 0
    ensures r.Success? ==> r.value.tableId == selectedTable.value && r.value.customer == customers[0]
    ensures selectedTable.None? || selectedTable.value == "" ==> r == Failure("Please select a table first")
    ensures selectedTable.Some? && selectedTable.value != "" && |customers| == 0 ==> r == Failure("No customers at this table")
  {
    match StartOrder(selectedTable, customers)
    case Refused(NoTableSelected) => Failure("Please select a table first")
    case Refused(NoCustomers) => Failure("No customers at this table")
    case Started(id) => Success(OrderNavigation(id, tableName, customers[0]))
  }

  datatype ScanOutcome = NoTablesFound | AllOccupied | Selected(table: TableRow)

  /** `simulateQRScan`: picks one of the unoccupied tables; the random draw
      is the parameter `pick`, reduced to the number of candidates. */
  function SimulateScan(rows: seq<TableRow>, pick: nat): (r: ScanOutcome)
    ensures r.NoTablesFound? <==> |rows| == 0
    ensures r.AllOccupied? <==> |rows| > 0 && forall t :: t in rows ==> t.occupied
    ensures r.Selected? ==> r.table in rows && !r.table.occupied
  {
    if |rows| == 0 then NoTablesFound
    else
      var free := FreeTables(rows);
      if |free| == 0 then
        AllOccupied
      else
        assert free[pick % |free|] in free;
        Selected(free[pick % |free|])
  }

  /** A queued request to take payment for a bill. */
  datatype PaymentRequest = PaymentRequest(billId: string, tableId: string, tableName: string, timestamp: string)

  /** The `paymentrequest` event payload. */
  datatype PaymentPayload = PaymentPayload(billId: string, tableId: string)

  /** The console's payment state. */
  datatype Cashier = Cashier(tables: seq<TableRow>, pending: seq<PaymentRequest>,
                             current: Option<PaymentRequest>, showPaymentModal: bool)

  /** `tables.find(t => t.Id === id)`. */
  function FindTable(rows: seq<TableRow>, id: string): (r: Option<TableRow>)
    ensures r.None? <==> forall t :: t in rows ==> t.record.id != id
    ensures r.Some? ==> r.value in rows && r.value.record.id == id
  {
    if |rows| == 0 then None
    else if rows[0].record.id == id then Some(rows[0])
    else FindTable(rows[1..], id)
  }

  /** `find` returns the first row with the id. */
  lemma {:induction false} FindTableFirst(rows: seq<TableRow>, id: string, k: int)
    requires 0 <= k < |rows| && rows[k].record.id == id
    requires forall j :: 0 <= j < k ==> rows[j].record.id != id
    ensures FindTable(rows, id) == Some(rows[k])
  {
    if k > 0 {
      FindTableFirst(rows[1..], id, k - 1);
    }
  }

  /** `handlePaymentRequest`: a request for a known table joins the end of the
      queue, named after the first table row with that id and stamped with
      `now` (the clock reading `new Date().toISOString()`); one for an unknown
      table is dropped. */
  function HandlePaymentRequest(s: Cashier, payload: PaymentPayload, now: string): (r: Cashier)
    ensures (forall t :: t in s.tables ==> t.record.id != payload.tableId) ==> r == s
    ensures (exists t :: t in s.tables && t.record.id == payload.tableId) ==>
      && |r.pending| == |s.pending| + 1
      && r.pending[..|s.pending|] == s.pending
      && r.pending[|s.pending|].billId == payload.billId
      && r.pending[|s.pending|].tableId == payload.tableId
      && r.pending[|s.pending|].timestamp == now
    ensures forall k ::
              (0 <= k < |s.tables| && s.tables[k].record.id == payload.tableId &&
               forall j :: 0 <= j < k ==> s.tables[j].record.id != payload.tableId)
              ==> r.pending == s.pending + [PaymentRequest(payload.billId, payload.tableId, s.tables[k].record.name, now)]
    ensures r.tables == s.tables && r.current == s.current && r.showPaymentModal == s.showPaymentModal
  {
    match FindTable(s.tables, payload.tableId)
    case None => s
    case Some(t) =>
      var req := PaymentRequest(payload.billId, payload.tableId, t.record.name, now);
      assert (s.pending + [req])[..|s.pending|] == s.pending;
      assert forall k ::
               (0 <= k < |s.tables| && s.tables[k].record.id == payload.tableId &&
                forall j :: 0 <= j < k ==> s.tables[j].record.id != payload.tableId)
               ==> s.tables[k] == t by {
        forall k | 0 <= k < |s.tables| && s.tables[k].record.id == payload.tableId &&
                   forall j :: 0 <= j < k ==> s.tables[j].record.id != payload.tableId {
          FindTableFirst(s.tables, payload.tableId, k);
        }
      }
      s.(pending := s.pending + [req])
  }

  /** Index of the first queued request for `billId`, or -1. */
  function PendingIndex(pending: seq<PaymentRequest>, billId: string): (r: int)
    ensures -1 <= r < |pending|
    ensures r == -1 <==> forall p :: p in pending ==> p.billId != billId
    ensures 0 <= r ==> pending[r].billId == billId && forall j :: 0 <= j < r ==> pending[j].billId != billId
  {
    if |pending| == 0 then -1
    else if pending[0].billId == billId then 0
    else
      var k := PendingIndex(pending[1..], billId);
      if k == -1 then -1 else k + 1
  }

  /** `pendingPayments.find(p => p.billId === billId)`. */
  function FindPending(pending: seq<PaymentRequest>, billId: string): Option<PaymentRequest> {
    var k := PendingIndex(pending, billId);
    if k < 0 then None else Some(pending[k])
  }

  /** `showPaymentConfirmation`: selects the first queued request for the
      bill (or nothing) and opens the modal only when one was found. */
  function ShowPaymentConfirmation(s: Cashier, billId: string): (r: Cashier)
    ensures r.current.None? <==> forall p :: p in s.pending ==> p.billId != billId
    ensures r.current.Some? ==> r.current.value == s.pending[PendingIndex(s.pending, billId)]
    ensures r.showPaymentModal <==> (r.current.Some? || s.showPaymentModal)
    ensures r.pending == s.pending && r.tables == s.tables
  {
    var found := FindPending(s.pending, billId);
    s.(current := found, showPaymentModal := found.Some? || s.showPaymentModal)
  }

  /** `pendingPayments.filter(p => p.billId !== billId)`. */
  function DropBill(pending: seq<PaymentRequest>, billId: string): (r: seq<PaymentRequest>)
    ensures |r| <= |pending|
    ensures forall i :: 0 <= i < |r| ==> r[i].billId != billId
  {
    if |pending| == 0 then []
    else (if pending[0].billId == billId then [] else [pending[0]]) + DropBill(pending[1..], billId)
  }

  /** The remaining requests keep their order: the filter distributes over
      concatenation. */
  lemma {:induction false} DropBillConcat(a: seq<PaymentRequest>, b: seq<PaymentRequest>, billId: string)
    ensures DropBill(a + b, billId) == DropBill(a, billId) + DropBill(b, billId)
  {
    if |a| == 0 {
      assert a + b == b;
    } else {
      var ab := a + b;
      assert ab[0] == a[0] && ab[1..] == a[1..] + b;
      DropBillConcat(a[1..], b, billId);
      var head := if a[0].billId != billId then [a[0]] else [];
      var rest, tail := DropBill(a[1..], billId), DropBill(b, billId);
      assert DropBill(ab, billId) == head + (rest + tail);
      assert DropBill(a, billId) == head + rest;
      assert head + (rest + tail) == (head + rest) + tail;
    }
  }

  /** One request stays iff it is for another bill. */
  lemma DropBillSingle(x: PaymentRequest, billId: string)
    ensures DropBill([x], billId) == (if x.billId == billId then [] else [x])
  {
    assert [x][1..] == [];
  }

  /** A request stays iff it is for another bill. */
  lemma {:induction false} DropBillKeeps(pending: seq<PaymentRequest>, billId: string)
    ensures forall p :: p in DropBill(pending, billId) <==> p in pending && p.billId != billId
  {
    if |pending| > 0 {
      DropBillKeeps(pending[1..], billId);
      assert pending == [pending[0]] + pending[1..];
    }
  }

  /** A queue with no request for the bill is kept as it is. */
  lemma {:induction false} DropBillAbsent(pending: seq<PaymentRequest>, billId: string)
    requires forall i :: 0 <= i < |pending| ==> pending[i].billId != billId
    ensures DropBill(pending, billId) == pending
  {
    if |pending| > 0 {
      assert pending == [pending[0]] + pending[1..];
      DropBillAbsent(pending[1..], billId);
    }
  }

  /** `confirmPayment` with the outcome of the bill-status update. Without a
      selected request nothing happens. On success every queued request for
      the bill is removed, the selection is cleared, the modal closes and
      `paymentConfirmed` is fired with the bill id; on failure nothing
      changes. */
  function ConfirmPayment(s: Cashier, updateSucceeded: bool): (r: (Cashier, Option<string>))
    ensures s.current.None? || !updateSucceeded ==> r == (s, None)
    ensures s.current.Some? && updateSucceeded ==>
      && r.0.pending == DropBill(s.pending, s.current.value.billId)
      && r.0.current.None? && !r.0.showPaymentModal
      && r.0.tables == s.tables
      && r.1 == Some(s.current.value.billId)
  {
    if s.current.None? || !updateSucceeded then (s, None)
    else
      var billId := s.current.value.billId;
      (s.(pending := DropBill(s.pending, billId), current := None, showPaymentModal := false), Some(billId))
  }

  /** `cancelPayment`: clears the selection and closes the modal; the queue is
      untouched. */
  function CancelPayment(s: Cashier): (r: Cashier)
    ensures r.current.None? && !r.showPaymentModal
    ensures r.pending == s.pending && r.tables == s.tables
  {
    s.(current := None, showPaymentModal := false)
  }

  /** A request for a known table, selected and confirmed successfully,
      leaves no request for its bill in the queue; if the status update fails
      the request is still queued. */
  lemma RequestSelectConfirm(s: Cashier, payload: PaymentPayload, now: string, ok: bool)
    requires exists t :: t in s.tables && t.record.id == payload.tableId
    ensures var q := ShowPaymentConfirmation(HandlePaymentRequest(s, payload, now), payload.billId);
      && q.current.Some?
      && (ok ==> forall p :: p in ConfirmPayment(q, ok).0.pending ==> p.billId != payload.billId)
      && (!ok ==> exists p :: p in ConfirmPayment(q, ok).0.pending && p.billId == payload.billId)
  {
    var h := HandlePaymentRequest(s, payload, now);
    assert h.pending[|s.pending|] in h.pending;
    var q := ShowPaymentConfirmation(h, payload.billId);
    assert q.current.Some?;
  }

  /** The event the console listens on. */
  const PaymentRequestEvent := "paymentrequest"

  /** `connectedCallback` subscribes the console's handler for payment requests. */
  function Connect(reg: PubSub.Registry, console: PubSub.Receiver, handler: PubSub.Callback): (r: PubSub.Registry)
    ensures PubSub.ListenersFor(r, PaymentRequestEvent) ==
            PubSub.ListenersFor(reg, PaymentRequestEvent) + [PubSub.Listener(handler, console)]
  {
    PubSub.Register(reg, PaymentRequestEvent, handler, console)
  }

  /** `disconnectedCallback` removes every subscription the console holds, so
      no later event reaches it. */
  function Disconnect(reg: PubSub.Registry, console: PubSub.Receiver): (r: PubSub.Registry)
    ensures forall e, l :: l in PubSub.ListenersFor(r, e) ==> l.thisArg != console
  {
    PubSub.UnregisterAll(reg, console)
  }
}

=== FILE: email.dfy ===
/** The e-mail address check shared by the agent console, the order page and
    the bill page: the regular expression `^[^\s@]+@[^\s@]+\.[^\s@]+$`. */
module Email {
  import opened Text

  /** A character that `[^\s@]` matches. */
  predicate Plain(c: char) {
    !IsWhitespace(c) && c != '@'
  }

  predicate AllPlain(s: string) {
    forall i :: 0 <= i < |s| ==> Plain(s[i])
  }

  /** The regular expression, read as a language: `s` splits as
      A "@" B "." C where A, B and C are non-empty runs of `[^\s@]`
      (B and C may themselves contain dots). */
  ghost predicate MatchesPattern(s: string) {
    exists at, dot :: SplitsAt(s, at, dot)
  }

  /** `s` is A "@" B "." C with the `@` at `at` and the dot at `dot`. */
  predicate SplitsAt(s: string, at: int, dot: int) {
    && 0 < at && at + 1 < dot && dot + 1 < |s|
    && s[at] == '@' && s[dot] == '.'
    && AllPlain(s[..at]) && AllPlain(s[at + 1..dot]) && AllPlain(s[dot + 1..])
  }

  /** The part after the `@`: a run of `[^\s@]` with a dot that has at least
      one character on each side. */
  predicate DomainOk(d: string) {
    AllPlain(d) && exists j :: 0 < j < |d| - 1 && d[j] == '.'
  }

  /** `validateEmail(email)`, computed by splitting at the first `@`. */
  function ValidateEmail(s: string): bool {
    var at := IndexOf(s, '@');
    at > 0 && AllPlain(s[..at]) && DomainOk(s[at + 1..])
  }

  /** The `isEmailInvalid` getter: no address, or one that fails the check. */
  function IsEmailInvalid(s: string): (r: bool)
    ensures r <==> !MatchesPattern(s)
  {
    ValidateEmailMatchesPattern(s);
    s == [] || !ValidateEmail(s)
  }

  /** Every string the check accepts matches the regular expression. */
  lemma ValidateEmailSound(s: string)
    requires ValidateEmail(s)
    ensures MatchesPattern(s)
  {
    var at := IndexOf(s, '@');
    var d := s[at + 1..];
    var j :| 0 < j < |d| - 1 && d[j] == '.';
    var dot := at + 1 + j;
    assert s[at + 1..dot] == d[..j];
    assert s[dot + 1..] == d[j + 1..];
    assert SplitsAt(s, at, dot);
  }

  /** The first `@` of a matching string is the one the pattern splits at. */
  lemma FirstAtIsSplit(s: string, a: int)
    requires 0 < a < |s| && s[a] == '@' && AllPlain(s[..a])
    ensures IndexOf(s, '@') == a
  {
  }

  /** Every string the regular expression matches is accepted by the check. */
  lemma ValidateEmailComplete(s: string)
    requires MatchesPattern(s)
    ensures ValidateEmail(s)
  {
    var a, dot :| SplitsAt(s, a, dot);
    FirstAtIsSplit(s, a);
    DomainOfSplit(s, a, dot);
  }

  /** What follows the `@` of a split is a well-formed domain. */
  lemma DomainOfSplit(s: string, a: int, dot: int)
    requires SplitsAt(s, a, dot)
    ensures DomainOk(s[a + 1..])
  {
    var d := s[a + 1..];
    assert d == s[a + 1..dot] + ['.'] + s[dot + 1..];
    assert Plain('.');
    AllPlainJoin(s[a + 1..dot], '.', s[dot + 1..]);
    assert 0 < dot - a - 1 < |d| - 1 && d[dot - a - 1] == '.';
  }

  lemma AllPlainJoin(x: string, c: char, y: string)
    requires AllPlain(x) && Plain(c) && AllPlain(y)
    ensures AllPlain(x + [c] + y)
  {
  }

  /** The split-at-the-first-`@` computation accepts exactly the strings the
      regular expression matches. */
  lemma ValidateEmailMatchesPattern(s: string)
    ensures ValidateEmail(s) <==> MatchesPattern(s)
  {
    if ValidateEmail(s) {
      ValidateEmailSound(s);
    }
    if MatchesPattern(s) {
      ValidateEmailComplete(s);
    }
  }
}

=== FILE: feedback.dfy ===
/** The dish feedback form (feedbackForm.js): per-dish star ratings and
    comments, validation on submit, and the star models the form draws. */
module Feedback {
  import opened Wrappers

  /** One drawn star: its value 1..5 and its CSS class. */
  datatype Star = Star(value: int, className: string)

  /** A dish from the bill, with the stars last generated for it. */
  datatype Dish = Dish(id: string, name: string, stars: seq<Star>)

  /** The form. A rating that `parseInt` could not read (NaN) behaves like no
      rating at every read, so it is modelled as a missing key. */
  datatype Form = Form(dishes: seq<Dish>, ratings: map<string, int>, comments: map<string, string>, isSubmitted: bool)

  /** A `submitDishFeedback` call. */
  datatype Submission = Submission(dishId: string, rating: int, comments: string)

  const Filled: string := "star filled"
  const Empty: string := "star"

  /** `dishRatings[id]`, or None when unset. */
  function RatingOf(f: Form, id: string): Option<int> {
    if id in f.ratings then Some(f.ratings[id]) else None
  }

  /** A rating the form accepts: present, non-zero, and between 1 and 5. */
  predicate RatingOk(r: Option<int>) {
    r.Some? && 1 <= r.value <= 5
  }

  /** `handleRatingChange` / the rating part of `handleStarClick`: `parsed`
      is None when the value is not a number. */
  function SetRating(f: Form, id: string, parsed: Option<int>): (r: Form)
    ensures RatingOf(r, id) == parsed
    ensures forall other :: other != id ==> RatingOf(r, other) == RatingOf(f, other)
    ensures r.dishes == f.dishes && r.comments == f.comments && r.isSubmitted == f.isSubmitted
  {
    match parsed
    case Some(v) => f.(ratings := f.ratings[id := v])
    case None => f.(ratings := f.ratings - {id})
  }

  /** `handleCommentChange`. */
  function SetComment(f: Form, id: string, text: string): (r: Form)
    ensures id in r.comments && r.comments[id] == text
    ensures forall other :: other in f.comments && other != id ==> other in r.comments && r.comments[other] == f.comments[other]
    ensures r.dishes == f.dishes && r.ratings == f.ratings && r.isSubmitted == f.isSubmitted
  {
    f.(comments := f.comments[id := text])
  }

  /** Dishes without an acceptable rating, by name, in dish order. */
  function Errors(dishes: seq<Dish>, f: Form): seq<string> {
    if |dishes| == 0 then []
    else
      var prev := Errors(dishes[..|dishes| - 1], f);
      var d := dishes[|dishes| - 1];
      if RatingOk(RatingOf(f, d.id)) then prev else prev + [d.name]
  }

  /** The calls made for dishes with an acceptable rating, in dish order,
      with a missing comment sent as "". */
  function Submissions(dishes: seq<Dish>, f: Form): seq<Submission> {
    if |dishes| == 0 then []
    else
      var prev := Submissions(dishes[..|dishes| - 1], f);
      var d := dishes[|dishes| - 1];
      if RatingOk(RatingOf(f, d.id))
      then prev + [Submission(d.id, RatingOf(f, d.id).value, if d.id in f.comments then f.comments[d.id] else "")]
      else prev
  }

  /** Every dish lands in exactly one of the two lists. */
  lemma {:induction false} ErrorsAndSubmissionsPartition(dishes: seq<Dish>, f: Form)
    ensures |Errors(dishes, f)| + |Submissions(dishes, f)| == |dishes|
    ensures forall s :: s in Submissions(dishes, f) ==> 1 <= s.rating <= 5
  {
    if |dishes| > 0 {
      ErrorsAndSubmissionsPartition(dishes[..|dishes| - 1], f);
    }
  }

  /** `submitFeedback`: one pass over the dishes collects the names to
      complain about and the calls to make (a failed call only raises a
      toast). Only when no dish is missing a rating is the form marked
      submitted and cleared; otherwise it is left as it was. */
  method SubmitFeedback(f: Form) returns (r: Form, errors: seq<string>, calls: seq<Submission>)
    ensures errors == Errors(f.dishes, f) && calls == Submissions(f.dishes, f)
    ensures |errors| + |calls| == |f.dishes|
    ensures |errors| == 0 ==> r == f.(isSubmitted := true, ratings := map[], comments := map[])
    ensures |errors| > 0 ==> r == f
  {
    errors := [];
    calls := [];
    var i := 0;
    while i < |f.dishes|
      invariant 0 <= i <= |f.dishes|
      invariant errors == Errors(f.dishes[..i], f)
      invariant calls == Submissions(f.dishes[..i], f)
    {
      assert f.dishes[..i + 1][..i] == f.dishes[..i];
      var d := f.dishes[i];
      var rating := RatingOf(f, d.id);
      var comments := if d.id in f.comments then f.comments[d.id] else "";
      if !RatingOk(rating) {
        errors := errors + [d.name];
      } else {
        calls := calls + [Submission(d.id, rating.value, comments)];
      }
      i := i + 1;
    }
    assert f.dishes[..i] == f.dishes;
    ErrorsAndSubmissionsPartition(f.dishes, f);
    if |errors| == 0 {
      r := f.(isSubmitted := true, ratings := map[], comments := map[]);
    } else {
      r := f;
    }
  }

  /** `getStarClass`: star `n` is filled iff `n` is at most the rating, an
      unset rating counting as 0. */
  function StarClass(f: Form, dishId: string, n: int): (r: string)
    ensures r == Filled <==> n <= RatingOf(f, dishId).GetOr(0)
    ensures r == Filled || r == Empty
  {
    if n <= RatingOf(f, dishId).GetOr(0) then Filled else Empty
  }

  /** The five star models of a dish. */
  function StarsFor(f: Form, dishId: string): (r: seq<Star>)
    ensures |r| == 5
    ensures forall i :: 0 <= i < 5 ==> r[i].value == i + 1 && r[i].className == StarClass(f, dishId, i + 1)
  {
    seq(5, i requires 0 <= i < 5 => Star(i + 1, StarClass(f, dishId, i + 1)))
  }

  /** `generateStarModels`: every dish gets its five stars; nothing else
      about the dishes changes. */
  function GenerateStarModels(f: Form): (r: Form)
    ensures |r.dishes| == |f.dishes|
    ensures forall i :: 0 <= i < |f.dishes| ==>
              r.dishes[i].id == f.dishes[i].id && r.dishes[i].name == f.dishes[i].name
              && r.dishes[i].stars == StarsFor(f, f.dishes[i].id)
    ensures r.ratings == f.ratings && r.comments == f.comments && r.isSubmitted == f.isSubmitted
  {
    f.(dishes := seq(|f.dishes|, i requires 0 <= i < |f.dishes| => f.dishes[i].(stars := StarsFor(f, f.dishes[i].id))))
  }

  /** The rating clamped to the five stars. */
  function Clamp(r: int): int {
    if r < 0 then 0 else if r > 5 then 5 else r
  }

  /** The filled stars are a prefix: exactly the first `Clamp(rating)`. */
  lemma FilledStarsArePrefix(f: Form, dishId: string)
    ensures forall i :: 0 <= i < 5 ==>
              (StarsFor(f, dishId)[i].className == Filled <==> i < Clamp(RatingOf(f, dishId).GetOr(0)))
  {
  }

  /** `handleStarClick` (the later, effective definition): set the rating
      from the clicked star, then regenerate every dish's stars. */
  function HandleStarClick(f: Form, dishId: string, star: Option<int>): (r: Form)
    ensures RatingOf(r, dishId) == star
    ensures |r.dishes| == |f.dishes| && r.comments == f.comments
    ensures forall i :: 0 <= i < |r.dishes| ==> |r.dishes[i].stars| == 5
    ensures forall i :: 0 <= i < |r.dishes| && f.dishes[i].id == dishId ==>
              forall k :: 0 <= k < 5 ==> (r.dishes[i].stars[k].className == Filled <==> star.Some? && k + 1 <= star.value)
  {
    GenerateStarModels(SetRating(f, dishId, star))
  }
}

=== FILE: kitchen.dfy ===
/** The kitchen dashboard (chefpage.js): per-status counts, per-item flags
    and badge classes, the table/status filter shown newest first, and the
    table options. */
module Kitchen {
  import opened OrderItems

  /** An item as displayed, with its derived flags. */
  datatype ChefItem = ChefItem(item: OrderItem, isPrepared: bool, isDelivered: bool, disablePreparedButton: bool, badgeClass: string)

  /** The three counters the dashboard shows. */
  datatype Counts = Counts(pending: nat, preparing: nat, prepared: nat)

  /** A select option; `caption` is its label. */
  datatype SelectOption = SelectOption(caption: string, value: string)

  /** The dashboard after a refresh. */
  datatype Board = Board(
    items: seq<ChefItem>,
    counts: Counts,
    tableOptions: seq<SelectOption>,
    selectedTable: string,
    selectedStatus: string,
    filtered: seq<ChefItem>)

  const Success: string := "slds-theme_success"
  const Info: string := "slds-theme_info"
  const Warning: string := "slds-theme_warning"

  /** The status select starts at Pending: the class declares the field
      twice and the later declaration wins. */
  function Initial(): (b: Board)
    ensures b.selectedStatus == Pending && b.selectedTable == ""
    ensures b.items == [] && b.filtered == [] && b.counts == Counts(0, 0, 0)
  {
    Board([], Counts(0, 0, 0), [], "", Pending, [])
  }

  /** `getStatusBadgeClass`: success for Prepared, info for Preparing,
      warning for everything else. */
  function BadgeClass(status: string): (r: string)
    ensures status == Prepared ==> r == Success
    ensures status == Preparing ==> r == Info
    ensures status != Prepared && status != Preparing ==> r == Warning
  {
    if status == Prepared then Success
    else if status == Preparing then Info
    else Warning
  }

  /** The per-item flags: the "prepared" button is disabled exactly for items
      already Prepared or Delivered. */
  function Decorate(item: OrderItem): (r: ChefItem)
    ensures r.item == item
    ensures r.disablePreparedButton <==> item.status == Prepared || item.status == Delivered
    ensures r.isPrepared <==> item.status == Prepared
    ensures r.isDelivered <==> item.status == Delivered
    ensures !(r.isPrepared && r.isDelivered)
    ensures r.badgeClass == BadgeClass(item.status)
  {
    var p := item.status == Prepared;
    var d := item.status == Delivered;
    ChefItem(item, p, d, p || d, if p then Success else if item.status == Preparing then Info else Warning)
  }

  function DecorateAll(data: seq<OrderItem>): (r: seq<ChefItem>)
    ensures |r| == |data| && forall i :: 0 <= i < |r| ==> r[i] == Decorate(data[i])
  {
    seq(|data|, i requires 0 <= i < |data| => Decorate(data[i]))
  }

  /** The reference count: how many items carry `status`. */
  function CountStatus(data: seq<OrderItem>, status: string): nat {
    if |data| == 0 then 0
    else CountStatus(data[..|data| - 1], status) + (if data[|data| - 1].status == status then 1 else 0)
  }

  /** The three counted statuses together never exceed the number of items. */
  lemma {:induction false} CountsBounded(data: seq<OrderItem>)
    ensures CountStatus(data, Pending) + CountStatus(data, Preparing) + CountStatus(data, Prepared) <= |data|
  {
    if |data| > 0 {
      CountsBounded(data[..|data| - 1]);
    }
  }

  /** The counting pass of `wiredItems`: starts from zero and counts only
      Pending, Preparing and Prepared items. */
  method Tally(data: seq<OrderItem>) returns (c: Counts)
    ensures c.pending == CountStatus(data, Pending)
    ensures c.preparing == CountStatus(data, Preparing)
    ensures c.prepared == CountStatus(data, Prepared)
    ensures c.pending + c.preparing + c.prepared <= |data|
  {
    c := Counts(0, 0, 0);
    var i := 0;
    while i < |data|
      invariant 0 <= i <= |data|
      invariant c.pending == CountStatus(data[..i], Pending)
      invariant c.preparing == CountStatus(data[..i], Preparing)
      invariant c.prepared == CountStatus(data[..i], Prepared)
    {
      assert data[..i + 1][..i] == data[..i];
      var s := data[i].status;
      if s == Pending {
        c := c.(pending := c.pending + 1);
      } else if s == Preparing {
        c := c.(preparing := c.preparing + 1);
      } else if s == Prepared {
        c := c.(prepared := c.prepared + 1);
      }
      i := i + 1;
    }
    assert data[..i] == data;
    CountsBounded(data);
  }

  /** The filter predicate: an empty selection matches everything, and the
      Prepared selection also matches Delivered items. */
  predicate Keep(item: OrderItem, table: string, status: string) {
    && (table == "" || item.tableName == table)
    && (status == "" || item.status == status || (status == Prepared && item.status == Delivered))
  }

  /** The kept items in their original order. */
  function Kept(items: seq<ChefItem>, table: string, status: string): (r: seq<ChefItem>)
    ensures forall x :: x in r <==> x in items && Keep(x.item, table, status)
    ensures |r| <= |items|
  {
    if |items| == 0 then []
    else
      var rest := Kept(items[1..], table, status);
      if Keep(items[0].item, table, status) then [items[0]] + rest else rest
  }

  function Reverse<T>(s: seq<T>): (r: seq<T>)
    ensures |r| == |s| && forall i :: 0 <= i < |s| ==> r[i] == s[|s| - 1 - i]
  {
    if |s| == 0 then [] else [s[|s| - 1]] + Reverse(s[..|s| - 1])
  }

  /** `filterItems`: the kept items, newest (last fetched) first. */
  function FilterItems(items: seq<ChefItem>, table: string, status: string): (r: seq<ChefItem>)
    ensures forall x :: x in r <==> x in items && Keep(x.item, table, status)
    ensures Reverse(r) == Kept(items, table, status)
  {
    var k := Kept(items, table, status);
    ReverseInvolutive(k);
    Reverse(k)
  }

  lemma ReverseInvolutive<T>(s: seq<T>)
    ensures Reverse(Reverse(s)) == s
  {
  }

  /** Selecting "All" for both filters shows every item, newest first. */
  lemma {:induction false} NoFilterKeepsAll(items: seq<ChefItem>)
    ensures Kept(items, "", "") == items
  {
    if |items| > 0 {
      NoFilterKeepsAll(items[1..]);
    }
  }

  /** The table names, each once, in order of first appearance; items
      without a table name are skipped. */
  function Distinct(names: seq<string>): (r: seq<string>)
    ensures forall n :: n in r <==> n in names && n != ""
    ensures forall i, j :: 0 <= i < j < |r| ==> r[i] != r[j]
  {
    if |names| == 0 then []
    else
      var prev := Distinct(names[..|names| - 1]);
      var n := names[|names| - 1];
      assert forall m :: m in names <==> m in names[..|names| - 1] || m == n by {
        assert names == names[..|names| - 1] + [n];
      }
      if n == "" || n in prev then prev else prev + [n]
  }

  /** In `Distinct`, an earlier name first appears earlier in the input. */
  lemma {:induction false} DistinctFirstOccurrenceOrder(names: seq<string>, i: int, j: int)
    requires 0 <= i < j < |Distinct(names)|
    ensures FirstIndex(names, Distinct(names)[i]) < FirstIndex(names, Distinct(names)[j])
  {
    var prev := Distinct(names[..|names| - 1]);
    var n := names[|names| - 1];
    var d := Distinct(names);
    FirstIndexPrefix(names, d[i]);
    FirstIndexPrefix(names, d[j]);
    if j < |prev| {
      DistinctFirstOccurrenceOrder(names[..|names| - 1], i, j);
    } else {
      assert d[j] == n && n !in prev;
      assert d[i] in prev;
    }
  }

  /** Where `x` first appears in `s`. */
  function FirstIndex(s: seq<string>, x: string): (r: int)
    requires x in s
    ensures 0 <= r < |s| && s[r] == x && x !in s[..r]
  {
    if s[0] == x then 0
    else
      var k := FirstIndex(s[1..], x);
      assert s[..k + 1] == [s[0]] + s[1..][..k];
      k + 1
  }

  /** The first occurrence is the only position with no earlier copy. */
  lemma {:induction false} FirstIndexIs(s: seq<string>, x: string, k: int)
    requires 0 <= k < |s| && s[k] == x && x !in s[..k]
    ensures FirstIndex(s, x) == k
  {
    if k > 0 {
      assert s[0] != x by {
        assert s[..k][0] == s[0];
      }
      assert s[1..][..k - 1] == s[1..k];
      assert s[..k] == [s[0]] + s[1..k];
      FirstIndexIs(s[1..], x, k - 1);
    }
  }

  /** A name already in a prefix first appears at the same place in the
      whole; a name only in the last position first appears there. */
  lemma FirstIndexPrefix(s: seq<string>, x: string)
    requires |s| > 0 && x in s
    ensures x in s[..|s| - 1] ==> FirstIndex(s, x) == FirstIndex(s[..|s| - 1], x)
    ensures x !in s[..|s| - 1] ==> FirstIndex(s, x) == |s| - 1
  {
    var prefix := s[..|s| - 1];
    if x in prefix {
      var k2 := FirstIndex(prefix, x);
      assert s[..k2] == prefix[..k2];
      FirstIndexIs(s, x, k2);
    } else {
      assert s == prefix + [s[|s| - 1]];
      FirstIndexIs(s, x, |s| - 1);
    }
  }

  /** `extractTableOptions`: "All" (value "") first, then one option per
      distinct table name. */
  method ExtractTableOptions(items: seq<ChefItem>) returns (opts: seq<SelectOption>)
    ensures |opts| >= 1 && opts[0] == SelectOption("All", "")
    ensures |opts| == |Distinct(TableNames(items))| + 1
    ensures forall i :: 1 <= i < |opts| ==>
              opts[i].caption == opts[i].value == Distinct(TableNames(items))[i - 1]
  {
    var names := TableNames(items);
    var seen: set<string> := {};
    var found: seq<string> := [];
    var i := 0;
    while i < |names|
      invariant 0 <= i <= |names|
      invariant found == Distinct(names[..i])
      invariant seen == set n | n in found
    {
      assert names[..i + 1][..i] == names[..i];
      var n := names[i];
      if n != "" && n !in seen {
        found := found + [n];
        seen := seen + {n};
      }
      i := i + 1;
    }
    assert names[..i] == names;
    opts := [SelectOption("All", "")] + seq(|found|, j requires 0 <= j < |found| => SelectOption(found[j], found[j]));
  }

  function TableNames(items: seq<ChefItem>): (r: seq<string>)
    ensures |r| == |items| && forall i :: 0 <= i < |r| ==> r[i] == items[i].item.tableName
  {
    seq(|items|, i requires 0 <= i < |items| => items[i].item.tableName)
  }

  /** `wiredItems` with data: counts are recomputed from the fetched list
      alone, items decorated, table options rebuilt and the current filters
      applied. */
  method Refresh(b: Board, data: seq<OrderItem>) returns (r: Board)
    ensures r.items == DecorateAll(data)
    ensures r.counts == Counts(CountStatus(data, Pending), CountStatus(data, Preparing), CountStatus(data, Prepared))
    ensures r.filtered == FilterItems(r.items, b.selectedTable, b.selectedStatus)
    ensures |r.tableOptions| >= 1 && r.tableOptions[0] == SelectOption("All", "")
    ensures |r.tableOptions| == |Distinct(TableNames(r.items))| + 1
    ensures forall i :: 1 <= i < |r.tableOptions| ==>
              r.tableOptions[i].caption == r.tableOptions[i].value == Distinct(TableNames(r.items))[i - 1]
    ensures r.selectedTable == b.selectedTable && r.selectedStatus == b.selectedStatus
  {
    var c := Tally(data);
    var items := DecorateAll(data);
    var opts := ExtractTableOptions(items);
    r := Board(items, c, opts, b.selectedTable, b.selectedStatus, FilterItems(items, b.selectedTable, b.selectedStatus));
  }

  /** `handleTableChange` and `handleStatusChange`: a new selection re-filters
      the current items. */
  function SelectFilters(b: Board, table: string, status: string): (r: Board)
    ensures r.selectedTable == table && r.selectedStatus == status
    ensures forall x :: x in r.filtered <==> x in b.items && Keep(x.item, table, status)
    ensures Reverse(r.filtered) == Kept(b.items, table, status)
    ensures r.items == b.items && r.counts == b.counts && r.tableOptions == b.tableOptions
  {
    b.(selectedTable := table, selectedStatus := status, filtered := FilterItems(b.items, table, status))
  }
}

=== FILE: manage.dfy ===
/** The agent console's cart (manage.js): add, remove one unit, set a
    quantity, clear, the payload synced to the store after each change, and
    the checkout guards. */
module AgentCart {
  import opened Wrappers
  import opened CartLines
  import Tables

  /** The console's cart: the store id once loaded, the lines and the
      displayed total. */
  datatype Cart = Cart(cartId: Option<string>, lines: seq<Line>, total: int)

  /** The displayed total is the sum of the line totals. */
  predicate InSync(c: Cart) {
    c.total == SumTotals(c.lines)
  }

  /** A cart whose total is what its lines are worth. */
  predicate Sound(c: Cart) {
    Settled(c.lines, c.total)
  }

  /** `calculateCartTotal` after a change of lines. */
  function WithLines(c: Cart, lines: seq<Line>): (r: Cart)
    ensures InSync(r) && r.cartId == c.cartId && r.lines == lines
    ensures AllConsistent(lines) ==> Sound(r)
  {
    assert AllConsistent(lines) ==> SumTotals(lines) == Value(lines) by {
      if AllConsistent(lines) {
        ConsistentTotalsSumToValue(lines);
      }
    }
    Cart(c.cartId, lines, SumTotals(lines))
  }

  /** `handleCreateOrder`: the shared guard with this console's messages; on
      success the console enters order mode and loads the table's cart. */
  function CreateOrder(selectedTable: Option<string>, customers: seq<Tables.Customer>): (r: Result<string>)
    ensures r.Success? <==> selectedTable.Some? && selectedTable.value != "" && |customers| > 0
    ensures r.Success? ==> r.value == selectedTable.value
    ensures selectedTable.None? || selectedTable.value == "" ==> r == Failure("Select a table first")
    ensures selectedTable.Some? && selectedTable.value != "" && |customers| == 0 ==> r == Failure("Assign customers to this table first")
  {
    var start := Tables.StartOrder(selectedTable, customers);
    if start.Started? then Success(start.tableId)
    else if start.why.NoTableSelected? then Failure("Select a table first")
    else Failure("Assign customers to this table first")
  }

  /** `handleAddToCart`: refused until a cart is loaded; otherwise the item
      is merged into the lines, the total recomputed and the cart synced. */
  function AddToCart(c: Cart, item: Item): (r: Result<(Cart, Option<CartUpdate>)>)
    ensures r.Failure? <==> c.cartId.None?
    ensures r.Failure? ==> r.error == "Cart not initialized"
    ensures r.Success? ==> r.value.0.cartId == c.cartId && InSync(r.value.0)
    ensures r.Success? ==> QuantityOf(r.value.0.lines, item.id) == QuantityOf(c.lines, item.id) + 1
    ensures r.Success? ==> Others(r.value.0.lines, item.id) == Others(c.lines, item.id)
    ensures r.Success? && UniqueIds(c.lines) ==> UniqueIds(r.value.0.lines)
    ensures r.Success? && Sound(c) ==> Sound(r.value.0)
    ensures r.Success? ==> r.value.1.Some? && r.value.1 == Sync(r.value.0)
  {
    if c.cartId.None? then Failure("Cart not initialized")
    else
      var c2 := WithLines(c, Merge(c.lines, item));
      Success((c2, Sync(c2)))
  }

  /** `removeFromCart`: one unit fewer of `id`, deleting its line at
      quantity 1, then a sync; an id not in the cart changes nothing and
      sends nothing. */
  function RemoveFromCart(c: Cart, id: string): (r: (Cart, Option<CartUpdate>))
    ensures !HasId(c.lines, id) ==> r == (c, None)
    ensures HasId(c.lines, id) ==> InSync(r.0) && r.0.cartId == c.cartId && r.0.lines == Decrement(c.lines, id)
    ensures HasId(c.lines, id) && PositiveQuantities(c.lines) ==>
              QuantityOf(r.0.lines, id) == QuantityOf(c.lines, id) - 1
    ensures Others(r.0.lines, id) == Others(c.lines, id)
    ensures UniqueIds(c.lines) ==> UniqueIds(r.0.lines)
    ensures Sound(c) ==> Sound(r.0)
    ensures HasId(c.lines, id) ==> r.1 == Sync(r.0)
  {
    if !HasId(c.lines, id) then (c, None)
    else
      var c2 := WithLines(c, Decrement(c.lines, id));
      (c2, Sync(c2))
  }

  /** `updateQuantity` with the `parseInt` result (None for NaN): only a
      positive quantity for a line in the cart is applied; the line's total
      is recomputed and nothing else changes. */
  function UpdateQuantity(c: Cart, id: string, parsed: Option<int>): (r: (Cart, Option<CartUpdate>))
    ensures !HasId(c.lines, id) || parsed.None? || parsed.value <= 0 ==> r == (c, None)
    ensures HasId(c.lines, id) && parsed.Some? && parsed.value > 0 ==>
      var k := FindIndex(c.lines, id);
      && InSync(r.0) && r.0.cartId == c.cartId && |r.0.lines| == |c.lines|
      && r.0.lines[k] == Reprice(c.lines[k], parsed.value)
      && (forall j :: 0 <= j < |c.lines| && j != k ==> r.0.lines[j] == c.lines[j])
      && QuantityOf(r.0.lines, id) == QuantityOf(c.lines, id) - c.lines[k].quantity + parsed.value
      && Others(r.0.lines, id) == Others(c.lines, id)
      && r.1 == Sync(r.0)
    ensures UniqueIds(c.lines) ==> UniqueIds(r.0.lines)
    ensures Sound(c) ==> Sound(r.0)
  {
    var k := FindIndex(c.lines, id);
    if k >= 0 && parsed.Some? && parsed.value > 0 then
      var x := Reprice(c.lines[k], parsed.value);
      SplitAround(c.lines, k, x, id);
      assert Others([x], id) == [] && Others([c.lines[k]], id) == [];
      var c2 := WithLines(c, c.lines[k := x]);
      assert forall j :: 0 <= j < |c.lines| && j != k ==> c2.lines[j] == c.lines[j];
      (c2, Sync(c2))
    else
      (c, None)
  }

  /** `clearCart`: the lines and total are emptied and the empty cart is
      synced, so a loaded cart sends an update with no items. */
  function ClearCart(c: Cart): (r: (Cart, Option<CartUpdate>))
    ensures r.0.lines == [] && r.0.total == 0 && r.0.cartId == c.cartId
    ensures Sound(r.0)
    ensures r.1 == Sync(r.0)
    ensures r.1.None? <==> c.cartId.None?
    ensures r.1.Some? ==> r.1.value.items == [] && r.1.value.total == 0
  {
    var c2 := Cart(c.cartId, [], 0);
    (c2, Sync(c2))
  }

  /** A line `syncCart` keeps: it has an id and a name (its price is always
      present in this model). */
  predicate Syncable(line: Line) {
    line.id != "" && line.name != ""
  }

  /** The lines `syncCart` sends, in cart order. */
  function SyncableLines(lines: seq<Line>): (r: seq<Line>)
    ensures |r| <= |lines|
    ensures forall l :: l in r <==> l in lines && Syncable(l)
  {
    if |lines| == 0 then []
    else (if Syncable(lines[0]) then [lines[0]] else []) + SyncableLines(lines[1..])
  }

  /** `syncCart`: nothing is sent before a cart is loaded; otherwise the
      syncable lines and the displayed total. */
  function Sync(c: Cart): (r: Option<CartUpdate>)
    ensures r.None? <==> c.cartId.None?
    ensures r.Some? ==> r.value.cartId == c.cartId.value && r.value.total == c.total
    ensures r.Some? ==> forall l :: l in r.value.items <==> l in c.lines && Syncable(l)
  {
    if c.cartId.None? then None else Some(CartUpdate(c.cartId.value, SyncableLines(c.lines), c.total))
  }

  /** The sync filter distributes over concatenation, so the lines sent keep
      their cart order. */
  lemma {:induction false} SyncableLinesConcat(a: seq<Line>, b: seq<Line>)
    ensures SyncableLines(a + b) == SyncableLines(a) + SyncableLines(b)
  {
    if |a| == 0 {
      assert a + b == b;
    } else {
      var ab := a + b;
      assert ab[0] == a[0] && ab[1..] == a[1..] + b;
      SyncableLinesConcat(a[1..], b);
      var head := if Syncable(a[0]) then [a[0]] else [];
      var rest, tail := SyncableLines(a[1..]), SyncableLines(b);
      assert SyncableLines(ab) == head + (rest + tail);
      assert SyncableLines(a) == head + rest;
      assert head + (rest + tail) == (head + rest) + tail;
    }
  }

  /** One line is sent iff it has an id and a name. */
  lemma SyncableLinesSingle(x: Line)
    ensures SyncableLines([x]) == (if Syncable(x) then [x] else [])
  {
    assert [x][1..] == [];
  }

  /** A cart whose lines all have an id and a name is synced whole. */
  lemma {:induction false} SyncableKeepsWellFormed(lines: seq<Line>)
    requires forall i :: 0 <= i < |lines| ==> Syncable(lines[i])
    ensures SyncableLines(lines) == lines
  {
    if |lines| > 0 {
      SyncableKeepsWellFormed(lines[1..]);
      assert lines == [lines[0]] + lines[1..];
    }
  }

  /** `handleCheckout`: an empty cart is refused; otherwise the cart is
      synced and the payment modal is opened. */
  function Checkout(c: Cart): (r: Result<Option<CartUpdate>>)
    ensures r.Failure? <==> |c.lines| == 0
    ensures r.Failure? ==> r.error == "Cart is empty"
    ensures r.Success? ==> r.value == Sync(c)
  {
    if |c.lines| == 0 then Failure("Cart is empty") else Success(Sync(c))
  }

  /** `handleConfirmPayment` with the outcome of checkout and bill fetch:
      on success the cart is emptied, on failure it is kept. */
  function ConfirmPayment(c: Cart, succeeded: bool): (r: Cart)
    ensures succeeded ==> r.lines == [] && r.total == 0 && r.cartId == c.cartId
    ensures !succeeded ==> r == c
  {
    if succeeded then c.(lines := [], total := 0) else c
  }

  /** `loadCart` as written: the total is the sum of the stored line totals,
      which need not match the stored prices and quantities. A failed fetch
      keeps the cart; a malformed items field has already set the cart id. */
  function LoadCartAsWritten(c: Cart, fetched: Option<StoredCart>): (r: Cart)
    ensures fetched.None? ==> r == c
    ensures fetched.Some? ==> r.cartId == Some(fetched.value.id)
    ensures fetched.Some? && fetched.value.items.Parsed? ==>
              r.lines == fetched.value.items.value && InSync(r)
  {
    match fetched
    case None => c
    case Some(sc) =>
      match sc.items
      case Malformed => c.(cartId := Some(sc.id))
      case Absent => Cart(Some(sc.id), [], 0)
      case Parsed(lines) => Cart(Some(sc.id), lines, SumTotals(lines))
  }

  /** A JavaScript number as far as the cart total needs one: an integer
      amount, or `NaN`. */
  datatype Number = Finite(value: int) | NaN

  /** `calculateCartTotal` over the stored lines' raw `total` fields, None
      where a line was saved without one: `t + undefined` is `NaN`, and
      `NaN` absorbs every later addition. */
  function CartTotalAsWritten(totals: seq<Option<int>>): (r: Number)
    ensures r.NaN? <==> exists i :: 0 <= i < |totals| && totals[i].None?
  {
    if |totals| == 0 then Finite(0)
    else
      var rest := CartTotalAsWritten(totals[..|totals| - 1]);
      var last := totals[|totals| - 1];
      assert forall i :: 0 <= i < |totals| - 1 ==> totals[..|totals| - 1][i] == totals[i];
      if rest.NaN? || last.None? then NaN else Finite(rest.value + last.value)
  }

  /** The raw `total` fields of lines that all carry one. */
  function TotalFields(lines: seq<Line>): (r: seq<Option<int>>)
    ensures |r| == |lines| && forall i :: 0 <= i < |r| ==> r[i] == Some(lines[i].total)
  {
    seq(|lines|, i requires 0 <= i < |lines| => Some(lines[i].total))
  }

  /** When every stored line carries a total, the raw reduction is the sum
      of the stored totals that `LoadCartAsWritten` shows. */
  lemma {:induction false} CartTotalOfTotals(lines: seq<Line>)
    ensures CartTotalAsWritten(TotalFields(lines)) == Finite(SumTotals(lines))
  {
    if |lines| > 0 {
      var init := lines[..|lines| - 1];
      CartTotalOfTotals(init);
      assert TotalFields(lines)[..|lines| - 1] == TotalFields(init);
      SumTotalsConcat(init, [lines[|lines| - 1]]);
      assert init + [lines[|lines| - 1]] == lines;
      assert SumTotals([lines[|lines| - 1]]) == lines[|lines| - 1].total + SumTotals([]);
    }
  }

  /** A stored line whose total is stale: two units at 100, total 100, as
      the order page saves a one-unit line after adding one more
      (`OrderApp.AddKeepsStaleStoredTotal`). */
  const StaleLine := Line("a0X", "Dosa", 100, 2, 100, "")

  /** Reloading a cart holding that line shows a total of 100 for goods
      worth 200. */
  lemma StaleTotalSurvivesLoad()
    ensures var r := LoadCartAsWritten(Cart(None, [], 0), Some(StoredCart("c1", Parsed([StaleLine]), 100, "")));
      r.total == 100 && Value(r.lines) == 200 && !Sound(r)
  {
    var r := LoadCartAsWritten(Cart(None, [], 0), Some(StoredCart("c1", Parsed([StaleLine]), 100, "")));
    assert r.lines == [StaleLine];
    assert r.lines[1..] == [];
    assert r.total == SumTotals([StaleLine]);
    assert SumTotals([StaleLine]) == StaleLine.total + SumTotals([]);
    assert Value([StaleLine]) == StaleLine.price * StaleLine.quantity + Value([]);
    assert !Consistent(r.lines[0]);
  }

  /** `loadCart` with every loaded line's total recomputed from its price and
      quantity (as the customer page does), so the displayed total is what
      the lines are worth whatever totals were stored. */
  function LoadCart(c: Cart, fetched: Option<StoredCart>): (r: Cart)
    ensures fetched.None? ==> r == c
    ensures fetched.Some? ==> r.cartId == Some(fetched.value.id)
    ensures fetched.Some? && fetched.value.items.Parsed? ==>
              && |r.lines| == |fetched.value.items.value|
              && Sound(r) && InSync(r)
              && r.total == Value(fetched.value.items.value)
              && forall i :: 0 <= i < |r.lines| ==>
                   r.lines[i].(total := fetched.value.items.value[i].total) == fetched.value.items.value[i]
    ensures fetched.Some? && fetched.value.items.Absent? ==> r.lines == [] && r.total == 0
    ensures fetched.Some? && fetched.value.items.Malformed? ==> r.lines == c.lines && r.total == c.total
  {
    match fetched
    case None => c
    case Some(sc) =>
      match sc.items
      case Malformed => c.(cartId := Some(sc.id))
      case Absent => Cart(Some(sc.id), [], 0)
      case Parsed(lines) =>
        var fixed := RecomputeTotals(lines);
        RecomputedValue(lines);
        WithLines(Cart(Some(sc.id), [], 0), fixed)
  }

  /** The corrected loader does not read stored line totals: two stored carts
      whose lines differ only in their totals load the same. */
  lemma LoadCartIgnoresStoredTotals(c: Cart, id: string, a: seq<Line>, b: seq<Line>, ta: int, tb: int, sa: string, sb: string)
    requires |a| == |b| && forall i :: 0 <= i < |a| ==> a[i].(total := 0) == b[i].(total := 0)
    ensures LoadCart(c, Some(StoredCart(id, Parsed(a), ta, sa))) == LoadCart(c, Some(StoredCart(id, Parsed(b), tb, sb)))
  {
    assert RecomputeTotals(a) == RecomputeTotals(b) by {
      forall i | 0 <= i < |a|
        ensures RecomputeTotals(a)[i] == RecomputeTotals(b)[i]
      {
        assert a[i].(total := 0) == b[i].(total := 0);
        assert a[i].quantity == b[i].quantity && a[i].price == b[i].price;
      }
    }
  }

  /** Two consoles load the same stored cart holding one unit of `a`. The
      first adds `b` and syncs, and its payload carries `b`. The second,
      still on its stale copy, adds `a` and syncs a whole list with no `b`
      in it. Under the store's whole-list overwrite that second write wins
      and `b` is lost. */
  lemma LostUpdate(stored: StoredCart, a: Item, b: Item)
    requires stored.items == Parsed([NewLine(a)]) && a.id != b.id
    requires a.id != "" && a.name != "" && b.id != "" && b.name != ""
    ensures var first := LoadCartAsWritten(Cart(None, [], 0), Some(stored));
            var second := LoadCartAsWritten(Cart(None, [], 0), Some(stored));
            var u1 := AddToCart(first, b).value.1.value;
            var u2 := AddToCart(second, a).value.1.value;
            && (exists l :: l in u1.items && l.id == b.id)
            && (forall l :: l in u2.items ==> l.id != b.id)
            && u2.items == [Reprice(NewLine(a), 2)]
            && ApplyUpdate(ApplyUpdate(stored, u1), u2).items == Parsed([Reprice(NewLine(a), 2)])
  {
    var first := LoadCartAsWritten(Cart(None, [], 0), Some(stored));
    assert first.lines == [NewLine(a)];
    var withB := AddToCart(first, b).value.0;
    assert withB.lines == [NewLine(a), NewLine(b)];
    SyncableKeepsWellFormed(withB.lines);
    assert withB.lines[1] in Sync(withB).value.items;
    var second := AddToCart(first, a).value.0;
    FindIndexIs(first.lines, a.id, 0);
    assert second.lines == [Reprice(NewLine(a), 2)];
    SyncableKeepsWellFormed(second.lines);
  }
}

=== FILE: menu.dfy ===
/** The customer-facing menu list (menuComponent.js): category selection and
    the `addtocart` payload it raises for a menu item. */
module Menu {
  import opened Wrappers
  import opened CartLines

  /** A menu item as fetched: `Id`, `Name`, `Price__c` (paise). */
  datatype MenuEntry = MenuEntry(id: string, name: string, price: int)

  datatype MenuPage = MenuPage(items: seq<MenuEntry>, selectedCategory: string)

  /** The page starts with every category selected. */
  function Initial(): (p: MenuPage)
    ensures p.selectedCategory == "All" && p.items == []
  {
    MenuPage([], "All")
  }

  /** `handleCategoryChange`: the chosen value becomes the selection (and the
      wired fetch follows it). */
  function ChangeCategory(p: MenuPage, value: string): (r: MenuPage)
    ensures r.selectedCategory == value && r.items == p.items
  {
    p.(selectedCategory := value)
  }

  /** `wiredMenuItems`: fetched items replace the list; an error keeps it. */
  function Load(p: MenuPage, fetched: Option<seq<MenuEntry>>): (r: MenuPage)
    ensures fetched.Some? ==> r.items == fetched.value
    ensures fetched.None? ==> r == p
    ensures r.selectedCategory == p.selectedCategory
  {
    if fetched.Some? then p.(items := fetched.value) else p
  }

  /** `menuItems.find(i => i.Id === id)`. */
  function Find(items: seq<MenuEntry>, id: string): (r: Option<MenuEntry>)
    ensures r.None? <==> forall i :: 0 <= i < |items| ==> items[i].id != id
    ensures r.Some? ==> exists k :: 0 <= k < |items| && items[k] == r.value && r.value.id == id
                          && forall j :: 0 <= j < k ==> items[j].id != id
  {
    if |items| == 0 then None
    else if items[0].id == id then Some(items[0])
    else
      var r := Find(items[1..], id);
      assert r.Some? ==> exists k :: 0 <= k < |items| && items[k] == r.value && r.value.id == id
                          && forall j :: 0 <= j < k ==> items[j].id != id by {
        if r.Some? {
          var k :| 0 <= k < |items[1..]| && items[1..][k] == r.value && r.value.id == id
                   && forall j :: 0 <= j < k ==> items[1..][j].id != id;
          assert items[k + 1] == r.value;
          assert forall j :: 0 <= j < k + 1 ==> items[j].id != id by {
            forall j | 0 <= j < k + 1 ensures items[j].id != id {
              if j > 0 {
                assert items[j] == items[1..][j - 1];
              }
            }
          }
        }
      }
      r
  }

  /** `handleAddToCart`: nothing is raised for an id not on the list;
      otherwise the payload is the first matching item's id, name and price. */
  function AddToCart(p: MenuPage, id: string): (r: Option<Item>)
    ensures r.None? <==> forall i :: 0 <= i < |p.items| ==> p.items[i].id != id
    ensures r.Some? ==> r.value.id == id
    ensures r.Some? ==>
              exists k :: 0 <= k < |p.items| && p.items[k] == MenuEntry(r.value.id, r.value.name, r.value.price)
                          && forall j :: 0 <= j < k ==> p.items[j].id != id
  {
    match Find(p.items, id)
    case None => None
    case Some(e) => Some(Item(e.id, e.name, e.price))
  }

  /** With distinct ids the payload is the listed item itself. */
  lemma AddToCartPicksListedItem(p: MenuPage, k: int)
    requires 0 <= k < |p.items|
    requires forall i, j :: 0 <= i < j < |p.items| ==> p.items[i].id != p.items[j].id
    ensures AddToCart(p, p.items[k].id) == Some(Item(p.items[k].id, p.items[k].name, p.items[k].price))
  {
    var r := AddToCart(p, p.items[k].id);
    var m :| 0 <= m < |p.items| && p.items[m] == MenuEntry(r.value.id, r.value.name, r.value.price)
             && forall j :: 0 <= j < m ==> p.items[j].id != p.items[k].id;
    assert m == k;
  }
}

=== FILE: menu_admin.dfy ===
/** The menu admin page (menuListComponent.js): the add form and its
    required fields, the enable/disable/delete row actions, and toasts. */
module MenuAdmin {
  import opened Wrappers
  import opened Text
  import Toasts

  /** A menu item record; `vegType` is `Veg_Non_Veg__c`. Prices in paise. */
  datatype MenuItem = MenuItem(
    id: string,
    name: string,
    price: int,
    category: string,
    vegType: string,
    ingredients: string,
    prepTime: int,
    isDisabled: bool)

  /** The add dialog's fields. */
  datatype MenuForm = MenuForm(name: string, price: int, category: string, vegType: string, ingredients: string, prepTime: int)

  /** What a row action sends to the store. */
  datatype RowEffect = Update(item: MenuItem) | Delete(itemId: string) | NoCall

  /** `resetForm`: every text field empty and every number 0. */
  function ResetForm(): (f: MenuForm)
    ensures f.name == "" && f.category == "" && f.vegType == "" && f.ingredients == ""
    ensures f.price == 0 && f.prepTime == 0
  {
    MenuForm("", 0, "", "", "", 0)
  }

  /** `handleAdd`: without a name, category and type the add is refused and
      nothing is sent; otherwise the form goes to the store as it is. */
  function HandleAdd(f: MenuForm): (r: Result<MenuForm>)
    ensures r.Failure? <==> f.name == "" || f.category == "" || f.vegType == ""
    ensures r.Failure? ==> r.error == "Please fill out all required fields"
    ensures r.Success? ==> r.value == f
  {
    if f.name == "" || f.category == "" || f.vegType == "" then Failure("Please fill out all required fields")
    else Success(f)
  }

  /** A freshly reset form can never be submitted. */
  lemma ResetFormIsRefused()
    ensures HandleAdd(ResetForm()).Failure?
  {
  }

  /** `handleRowAction`: enable and disable send the row with only its
      disabled flag changed; delete sends the row's id; any other action
      sends nothing. */
  function HandleRowAction(row: MenuItem, action: string): (r: RowEffect)
    ensures action == "enable" ==> r == Update(row.(isDisabled := false))
    ensures action == "disable" ==> r == Update(row.(isDisabled := true))
    ensures action == "delete" ==> r == Delete(row.id)
    ensures action !in {"enable", "disable", "delete"} ==> r == NoCall
    ensures r.Update? ==> r.item.(isDisabled := row.isDisabled) == row
  {
    if action == "enable" then Update(row.(isDisabled := false))
    else if action == "disable" then Update(row.(isDisabled := true))
    else if action == "delete" then Delete(row.id)
    else NoCall
  }

  /** Enabling undoes disabling: the record sent is the original row with
      its flag cleared, whatever it was. */
  lemma DisableThenEnable(row: MenuItem)
    ensures HandleRowAction(HandleRowAction(row, "disable").item, "enable") == Update(row.(isDisabled := false))
    ensures !row.isDisabled ==> HandleRowAction(HandleRowAction(row, "disable").item, "enable") == Update(row)
  {
  }

  /** The three-character string the page actually substitutes for `$`: the
      rupee sign's UTF-8 bytes E2 82 B9 read as Windows-1252, i.e.
      U+00E2 U+201A U+00B9. */
  const Mojibake: string := "\U{00E2}\U{201A}\U{00B9}"

  /** `showToast`'s message as the page computes it. */
  function ToastMessageAsWritten(message: string): (r: string)
    ensures '$' !in message ==> r == message
    ensures '$' in message ==> |r| == |message| + 2
  {
    ReplaceFirst(message, '$', Mojibake)
  }

  /** The garbled output: a price shows three stray characters and
      no rupee sign. */
  lemma ToastShowsMojibake()
    ensures ToastMessageAsWritten("$40") == Mojibake + "40"
    ensures ToastMessageAsWritten("$40") != Toasts.WithRupee("$40")
    ensures '\U{20B9}' !in ToastMessageAsWritten("$40")
  {
    assert IndexOf("$40", '$') == 0;
    assert ToastMessageAsWritten("$40") == Mojibake + "40";
    assert Toasts.WithRupee("$40") == Toasts.Rupee + "40";
    assert ToastMessageAsWritten("$40")[0] != Toasts.WithRupee("$40")[0];
  }

  /** The message the page evidently means to show, as the table admin page
      shows it. */
  function ToastMessage(message: string): (r: string)
    ensures '$' !in message ==> r == message
    ensures '$' in message ==> Occurrences(r, '$') == Occurrences(message, '$') - 1
    ensures '$' in message ==> '\U{20B9}' in r
  {
    var r := Toasts.WithRupee(message);
    assert '$' in message ==> r[IndexOf(message, '$')] == '\U{20B9}';
    r
  }
}

=== FILE: order_app.dfy ===
/** The customer self-ordering page (orderApp.js): its own cart bookkeeping,
    which keeps quantities and a cart total but never refreshes a line's
    stored `total` field, and the checkout flow. */
module OrderApp {
  import opened Wrappers
  import opened CartLines
  import AgentCart

  /** A line as this page holds it. `storedTotal` is the `total` field the
      line was loaded with (None for a line this page appended, which is
      pushed without one); the page carries it along untouched. */
  datatype OrderLine = OrderLine(id: string, name: string, price: int, quantity: int, storedTotal: Option<int>, status: string)

  /** The page state that the cart and checkout handlers change. */
  datatype OrderPage = OrderPage(
    cartId: Option<string>,
    lines: seq<OrderLine>,
    total: int,
    orderId: Option<string>,
    showBill: bool,
    hasExistingCart: bool,
    showPaymentModal: bool)

  /** The `updateCartItems` call this page makes. */
  datatype OrderUpdate = OrderUpdate(cartId: string, lines: seq<OrderLine>, total: int)

  /** What a line means as a cart line: its price times quantity is its total. */
  function Project(l: OrderLine): Line {
    Line(l.id, l.name, l.price, l.quantity, l.price * l.quantity, l.status)
  }

  function ProjectAll(lines: seq<OrderLine>): (r: seq<Line>)
    ensures |r| == |lines| && AllConsistent(r)
    ensures forall i :: 0 <= i < |r| ==> r[i] == Project(lines[i])
  {
    seq(|lines|, i requires 0 <= i < |lines| => Project(lines[i]))
  }

  /** The line as it is written back to the store; `Some` only when the line
      carries a stored total. */
  function Stored(l: OrderLine): (r: Option<Line>)
    ensures r.Some? <==> l.storedTotal.Some?
    ensures r.Some? ==> r.value.(total := l.price * l.quantity) == Project(l) && r.value.total == l.storedTotal.value
  {
    if l.storedTotal.None? then None
    else Some(Line(l.id, l.name, l.price, l.quantity, l.storedTotal.value, l.status))
  }

  /** A loaded store line, with its total field kept. */
  function FromStored(l: Line): (r: OrderLine)
    ensures Stored(r) == Some(l)
    ensures Consistent(l) ==> Project(r) == l
  {
    OrderLine(l.id, l.name, l.price, l.quantity, Some(l.total), l.status)
  }

  function FromStoredAll(lines: seq<Line>): (r: seq<OrderLine>)
    ensures |r| == |lines| && forall i :: 0 <= i < |r| ==> r[i] == FromStored(lines[i])
  {
    seq(|lines|, i requires 0 <= i < |lines| => FromStored(lines[i]))
  }

  /** `saveCartToServer`: nothing without a cart id. */
  function Save(p: OrderPage): (r: Option<OrderUpdate>)
    ensures r.None? <==> p.cartId.None?
    ensures r.Some? ==> r.value == OrderUpdate(p.cartId.value, p.lines, p.total)
  {
    if p.cartId.None? then None else Some(OrderUpdate(p.cartId.value, p.lines, p.total))
  }

  /** `updateCartTotals` after a change of lines. */
  function WithLines(p: OrderPage, lines: seq<OrderLine>): (r: OrderPage)
    ensures r.lines == lines && r.total == Value(ProjectAll(lines))
    ensures r.cartId == p.cartId && r.orderId == p.orderId && r.showBill == p.showBill
    ensures r.hasExistingCart == p.hasExistingCart && r.showPaymentModal == p.showPaymentModal
  {
    p.(lines := lines, total := Value(ProjectAll(lines)))
  }

  /** `loadCart`: a missing cart or a failed fetch leaves the page as it is.
      Otherwise the cart id is taken and the stored lines are loaded with
      their total fields; the displayed total is recomputed from prices and
      quantities, whatever total the store holds. A malformed items field
      stops the load after the cart id. */
  function LoadCart(p: OrderPage, fetched: Option<StoredCart>): (r: OrderPage)
    ensures fetched.None? ==> r == p
    ensures fetched.Some? ==> r.cartId == Some(fetched.value.id)
    ensures fetched.Some? && fetched.value.items.Malformed? ==> r == p.(cartId := Some(fetched.value.id))
    ensures fetched.Some? && fetched.value.items.Absent? ==> r.lines == [] && r.total == 0 && r.hasExistingCart
    ensures fetched.Some? && fetched.value.items.Parsed? ==>
              && r.lines == FromStoredAll(fetched.value.items.value)
              && r.total == Value(fetched.value.items.value)
              && r.hasExistingCart
  {
    match fetched
    case None => p
    case Some(sc) =>
      var withId := p.(cartId := Some(sc.id));
      match sc.items
      case Malformed => withId
      case Absent => WithLines(withId, []).(hasExistingCart := true)
      case Parsed(stored) =>
        var lines := FromStoredAll(stored);
        assert ProjectAll(lines) == RecomputeTotals(stored);
        RecomputedValue(stored);
        WithLines(withId, lines).(hasExistingCart := true)
  }

  /** `handleAddToCart`: the first line for the id gains a unit (its stored
      total left as it was), or a line without a stored total is appended. */
  function AddToCart(p: OrderPage, item: Item): (r: (OrderPage, Option<OrderUpdate>))
    ensures ProjectAll(r.0.lines) == Merge(ProjectAll(p.lines), item)
    ensures |r.0.lines| >= |p.lines| && forall i :: 0 <= i < |p.lines| ==> r.0.lines[i].storedTotal == p.lines[i].storedTotal
    ensures r.0.total == Value(Merge(ProjectAll(p.lines), item))
    ensures !HasId(ProjectAll(p.lines), item.id) ==>
              |r.0.lines| == |p.lines| + 1 && r.0.lines[|p.lines|].storedTotal.None?
    ensures r.0.hasExistingCart && r.1 == Save(r.0)
    ensures r.0.cartId == p.cartId && r.0.showPaymentModal == p.showPaymentModal && r.0.orderId == p.orderId
  {
    var lines := AddLines(p.lines, item);
    var q := WithLines(p, lines).(hasExistingCart := true);
    (q, Save(q))
  }

  /** The line change of an add: the quantity of the first line for the id
      goes up by one, or a line without a stored total is pushed. */
  function AddLines(lines: seq<OrderLine>, item: Item): (r: seq<OrderLine>)
    ensures ProjectAll(r) == Merge(ProjectAll(lines), item)
    ensures |r| >= |lines| && forall i :: 0 <= i < |lines| ==> r[i].storedTotal == lines[i].storedTotal
    ensures !HasId(ProjectAll(lines), item.id) ==> |r| == |lines| + 1 && r[|lines|].storedTotal.None?
  {
    var cart := ProjectAll(lines);
    var k := FindIndex(cart, item.id);
    if k >= 0 then
      var l := lines[k].(quantity := lines[k].quantity + 1);
      ProjectUpdate(lines, k, l);
      assert Project(l) == Reprice(cart[k], cart[k].quantity + 1);
      assert Merge(cart, item) == cart[k := Project(l)];
      lines[k := l]
    else
      var l := OrderLine(item.id, item.name, item.price, 1, None, "");
      ProjectAppend(lines, l);
      assert Project(l) == NewLine(item);
      lines + [l]
  }

  /** Projection commutes with pushing a line. */
  lemma ProjectAppend(lines: seq<OrderLine>, x: OrderLine)
    ensures ProjectAll(lines + [x]) == ProjectAll(lines) + [Project(x)]
  {
  }

  /** The lines without any line for `id` (`filter(item => item.id !== id)`). */
  function Drop(lines: seq<OrderLine>, id: string): (r: seq<OrderLine>)
    ensures |r| <= |lines|
  {
    if |lines| == 0 then []
    else if lines[0].id == id then Drop(lines[1..], id)
    else [lines[0]] + Drop(lines[1..], id)
  }

  /** With unique ids, dropping every line for the id deletes the one line. */
  lemma {:induction false} DropUnique(lines: seq<OrderLine>, id: string, k: int)
    requires 0 <= k < |lines| && lines[k].id == id
    requires forall i, j :: 0 <= i < j < |lines| ==> lines[i].id != lines[j].id
    ensures Drop(lines, id) == lines[..k] + lines[k + 1..]
  {
    var t := lines[1..];
    if k == 0 {
      TailOthers(lines, id);
      DropAbsent(t, id);
      assert Drop(lines, id) == Drop(t, id);
    } else {
      TailUnique(lines);
      assert t[k - 1] == lines[k];
      DropUnique(t, id, k - 1);
      assert lines[0].id != id;
      assert Drop(lines, id) == [lines[0]] + Drop(t, id);
      assert t[..k - 1] == lines[1..k] && t[k..] == lines[k + 1..];
      assert lines[..k] == [lines[0]] + lines[1..k];
    }
  }

  lemma TailUnique(lines: seq<OrderLine>)
    requires |lines| > 0
    requires forall i, j :: 0 <= i < j < |lines| ==> lines[i].id != lines[j].id
    ensures forall i, j :: 0 <= i < j < |lines| - 1 ==> lines[1..][i].id != lines[1..][j].id
  {
    forall i, j | 0 <= i < j < |lines| - 1
      ensures lines[1..][i].id != lines[1..][j].id
    {
      assert lines[1..][i] == lines[i + 1] && lines[1..][j] == lines[j + 1];
    }
  }

  /** With unique ids, no later line shares the first line's id. */
  lemma TailOthers(lines: seq<OrderLine>, id: string)
    requires |lines| > 0 && lines[0].id == id
    requires forall i, j :: 0 <= i < j < |lines| ==> lines[i].id != lines[j].id
    ensures forall i :: 0 <= i < |lines| - 1 ==> lines[1..][i].id != id
  {
    forall i | 0 <= i < |lines| - 1
      ensures lines[1..][i].id != id
    {
      assert lines[1..][i] == lines[i + 1];
    }
  }

  /** The filter distributes over concatenation, so the remaining lines keep
      their order. */
  lemma {:induction false} DropConcat(a: seq<OrderLine>, b: seq<OrderLine>, id: string)
    ensures Drop(a + b, id) == Drop(a, id) + Drop(b, id)
  {
    if |a| == 0 {
      assert a + b == b;
    } else {
      var ab := a + b;
      assert ab[0] == a[0] && ab[1..] == a[1..] + b;
      DropConcat(a[1..], b, id);
    }
  }

  /** A line survives the filter iff it is for another id. */
  lemma {:induction false} DropKeeps(lines: seq<OrderLine>, id: string)
    ensures forall l :: l in Drop(lines, id) <==> l in lines && l.id != id
  {
    if |lines| > 0 {
      DropKeeps(lines[1..], id);
      assert lines == [lines[0]] + lines[1..];
    }
  }

  lemma {:induction false} DropAbsent(lines: seq<OrderLine>, id: string)
    requires forall i :: 0 <= i < |lines| ==> lines[i].id != id
    ensures Drop(lines, id) == lines
  {
    if |lines| > 0 {
      DropAbsent(lines[1..], id);
    }
  }

  /** The lines after removing one unit of `id` at its first line `k`: the
      unit comes off that line, or at quantity 1 every line for the id is
      dropped. No line for another id is touched. */
  function RemoveLines(lines: seq<OrderLine>, id: string, k: int): (r: seq<OrderLine>)
    requires 0 <= k < |lines| && lines[k].id == id
    ensures forall l :: l in r && l.id != id ==> l in lines
    ensures lines[k].quantity > 1 ==>
              && |r| == |lines| && r[k] == lines[k].(quantity := lines[k].quantity - 1)
              && forall j :: 0 <= j < |r| && j != k ==> r[j] == lines[j]
    ensures lines[k].quantity <= 1 ==> forall l :: l in r <==> l in lines && l.id != id
  {
    if lines[k].quantity > 1 then
      var r := lines[k := lines[k].(quantity := lines[k].quantity - 1)];
      assert forall i :: 0 <= i < |r| && i != k ==> r[i] == lines[i];
      r
    else
      DropKeeps(lines, id);
      Drop(lines, id)
  }

  /** Projection commutes with changing one line. */
  lemma ProjectUpdate(lines: seq<OrderLine>, k: int, x: OrderLine)
    requires 0 <= k < |lines|
    ensures ProjectAll(lines[k := x]) == ProjectAll(lines)[k := Project(x)]
  {
  }

  /** Projection commutes with deleting one line. */
  lemma ProjectDelete(lines: seq<OrderLine>, k: int)
    requires 0 <= k < |lines|
    ensures ProjectAll(lines[..k] + lines[k + 1..]) == ProjectAll(lines)[..k] + ProjectAll(lines)[k + 1..]
  {
  }

  /** With unique ids, removing a unit here is the agent console's decrement. */
  lemma RemoveLinesIsDecrement(lines: seq<OrderLine>, id: string)
    requires HasId(ProjectAll(lines), id) && UniqueIds(ProjectAll(lines))
    ensures var k := FindIndex(ProjectAll(lines), id);
            ProjectAll(RemoveLines(lines, id, k)) == Decrement(ProjectAll(lines), id)
  {
    var cart := ProjectAll(lines);
    var k := FindIndex(cart, id);
    if lines[k].quantity > 1 {
      var x := lines[k].(quantity := lines[k].quantity - 1);
      ProjectUpdate(lines, k, x);
      assert Project(x) == Reprice(cart[k], cart[k].quantity - 1);
    } else {
      assert forall i, j :: 0 <= i < j < |lines| ==> lines[i].id != lines[j].id by {
        forall i, j | 0 <= i < j < |lines| ensures lines[i].id != lines[j].id {
          assert cart[i].id != cart[j].id;
        }
      }
      DropUnique(lines, id, k);
      ProjectDelete(lines, k);
    }
  }

  /** `handleRemoveItem`: an unknown id changes nothing and saves nothing;
      otherwise one unit comes off, the total is recomputed, the cart saved,
      and `hasExistingCart` holds exactly while lines remain. */
  function RemoveItem(p: OrderPage, id: string): (r: (OrderPage, Option<OrderUpdate>))
    ensures !HasId(ProjectAll(p.lines), id) ==> r == (p, None)
    ensures HasId(ProjectAll(p.lines), id) ==>
              && r.0.lines == RemoveLines(p.lines, id, FindIndex(ProjectAll(p.lines), id))
              && r.1 == Save(r.0)
              && (r.0.hasExistingCart <==> |r.0.lines| > 0)
              && r.0.total == Value(ProjectAll(r.0.lines))
    ensures UniqueIds(ProjectAll(p.lines)) ==> ProjectAll(r.0.lines) == Decrement(ProjectAll(p.lines), id)
  {
    var k := FindIndex(ProjectAll(p.lines), id);
    if k < 0 then (p, None)
    else
      var lines := RemoveLines(p.lines, id, k);
      assert UniqueIds(ProjectAll(p.lines)) ==> ProjectAll(lines) == Decrement(ProjectAll(p.lines), id) by {
        if UniqueIds(ProjectAll(p.lines)) {
          RemoveLinesIsDecrement(p.lines, id);
        }
      }
      var q := WithLines(p, lines).(hasExistingCart := |lines| > 0);
      (q, Save(q))
  }

  /** `handleNewOrder`: an empty cart, no order, no bill; the store's cart is
      cleared when there is one. */
  function NewOrder(p: OrderPage): (r: (OrderPage, Option<OrderUpdate>))
    ensures r.0.lines == [] && r.0.total == 0 && r.0.orderId.None?
    ensures !r.0.showBill && !r.0.hasExistingCart
    ensures r.0.cartId == p.cartId && r.0.showPaymentModal == p.showPaymentModal
    ensures r.1.None? <==> p.cartId.None?
    ensures r.1.Some? ==> r.1.value == OrderUpdate(p.cartId.value, [], 0)
  {
    var q := p.(lines := [], total := 0, orderId := None, showBill := false, hasExistingCart := false);
    (q, Save(q))
  }

  /** `handleCheckout`: an empty cart is refused with "Cart is empty";
      otherwise the payment dialog opens. */
  function Checkout(p: OrderPage): (r: Result<OrderPage>)
    ensures r.Failure? <==> |p.lines| == 0
    ensures r.Failure? ==> r.error == "Cart is empty"
    ensures r.Success? ==> r.value == p.(showPaymentModal := true)
  {
    if |p.lines| == 0 then Failure("Cart is empty") else Success(p.(showPaymentModal := true))
  }

  /** `handleConfirmPayment`: the dialog closes and the cart is saved; when
      the store creates the order (`created` is its id) the bill is shown and
      the cart emptied, otherwise nothing else changes. */
  function ConfirmPayment(p: OrderPage, created: Option<string>): (r: (OrderPage, Option<OrderUpdate>))
    ensures !r.0.showPaymentModal && r.1 == Save(p)
    ensures created.None? ==> r.0 == p.(showPaymentModal := false)
    ensures created.Some? ==>
              && r.0.orderId == created && r.0.showBill && !r.0.hasExistingCart
              && r.0.lines == [] && r.0.total == 0 && r.0.cartId == p.cartId
  {
    var closed := p.(showPaymentModal := false);
    match created
    case None => (closed, Save(p))
    case Some(id) =>
      (closed.(orderId := Some(id), showBill := true, hasExistingCart := false, lines := [], total := 0), Save(p))
  }

  /** This page's add agrees with the agent console's on quantities and
      worth, but a loaded line keeps the total it was stored with: a
      one-unit Dosa line at 100 paise, added to once, is saved with
      quantity 2 and total 100. */
  lemma AddKeepsStaleStoredTotal()
    ensures var stored := Line("a0X", "Dosa", 100, 1, 100, "");
            var loaded := LoadCart(OrderPage(None, [], 0, None, false, false, false),
                                   Some(StoredCart("c1", Parsed([stored]), 100, "Active")));
            var added := AddToCart(loaded, Item("a0X", "Dosa", 100));
            && added.1.Some?
            && |added.1.value.lines| == 1
            && Stored(added.1.value.lines[0]) == Some(Line("a0X", "Dosa", 100, 2, 100, ""))
            && added.1.value.total == 200
  {
    var stored := Line("a0X", "Dosa", 100, 1, 100, "");
    var loaded := LoadCart(OrderPage(None, [], 0, None, false, false, false),
                           Some(StoredCart("c1", Parsed([stored]), 100, "Active")));
    assert loaded.lines == [FromStored(stored)];
    assert ProjectAll(loaded.lines) == [stored];
    FindIndexIs([stored], "a0X", 0);
    var added := AddToCart(loaded, Item("a0X", "Dosa", 100));
    assert added.0.lines == [loaded.lines[0].(quantity := 2)];
    assert ProjectAll(added.0.lines) == [Line("a0X", "Dosa", 100, 2, 200, "")];
  }

  /** The raw `total` fields of the saved lines. */
  function StoredTotalFields(lines: seq<OrderLine>): (r: seq<Option<int>>)
    ensures |r| == |lines| && forall i :: 0 <= i < |r| ==> r[i] == lines[i].storedTotal
  {
    seq(|lines|, i requires 0 <= i < |lines| => lines[i].storedTotal)
  }

  /** Adding an item that is not yet in the cart saves a line without a
      `total` field, and the agent console's `calculateCartTotal` over the
      saved lines is then `NaN`. */
  lemma PushedLineLoadsAsNaN(p: OrderPage, item: Item)
    requires p.cartId.Some? && !HasId(ProjectAll(p.lines), item.id)
    ensures var u := AddToCart(p, item).1;
            u.Some? && AgentCart.CartTotalAsWritten(StoredTotalFields(u.value.lines)).NaN?
  {
    var u := AddToCart(p, item).1;
    var fields := StoredTotalFields(u.value.lines);
    assert fields[|p.lines|].None?;
  }
}

=== FILE: order_items.dfy ===
/** OrderItem rows as the kitchen and service dashboards fetch them, and the
    status names the client code compares against. */
module OrderItems {

  const Pending: string := "Pending"
  const Preparing: string := "Preparing"
  const Prepared: string := "Prepared"
  const Delivered: string := "Delivered"

  /** An OrderItem with its `Status__c` and the name of its order's table
      ("" when the item's order carries no table name). */
  datatype OrderItem = OrderItem(id: string, name: string, quantity: int, status: string, tableName: string)
}

=== FILE: order_totals.dfy ===
/** The order summary panel (orderComponent.js): per-line totals, the
    subtotal, 18% GST and the grand total, and the reset after an order. */
module OrderTotals {
  import opened Wrappers

  /** A cart item row as fetched. A price or quantity that is missing, 0 or
      not a number reads as None, and `|| 0` turns it into 0. */
  datatype CartItem = CartItem(id: string, name: string, price: Option<int>, quantity: Option<int>)

  /** A displayed row with its `itemTotal`. */
  datatype Row = Row(item: CartItem, itemTotal: int)

  /** The panel: rows, totals and the empty flag. GST and the grand total
      are exact reals (the source computes them in floating point). */
  datatype Summary = Summary(rows: seq<Row>, subTotal: int, gst: real, grandTotal: real, isCartEmpty: bool)

  const GstRate: real := 18.0 / 100.0

  /** The `updateOrderTotals` call `calculateTotals` issues. */
  datatype TotalsUpdate = TotalsUpdate(orderId: string, gst: real, totalAmount: real)

  /** `(price || 0) * (quantity || 0)`. */
  function ItemTotal(item: CartItem): (r: int)
    ensures item.price.None? || item.quantity.None? ==> r == 0
    ensures item.price.Some? && item.quantity.Some? ==> r == item.price.value * item.quantity.value
  {
    item.price.GetOr(0) * item.quantity.GetOr(0)
  }

  /** The reference subtotal: the sum of the line totals. */
  function Sum(items: seq<CartItem>): int {
    if |items| == 0 then 0 else Sum(items[..|items| - 1]) + ItemTotal(items[|items| - 1])
  }

  /** The `reduce` in `calculateTotals`, as a loop over the rows. */
  method SubTotal(items: seq<CartItem>) returns (s: int)
    ensures s == Sum(items)
    ensures (forall i :: 0 <= i < |items| ==> ItemTotal(items[i]) >= 0) ==> s >= 0
  {
    s := 0;
    var i := 0;
    while i < |items|
      invariant 0 <= i <= |items|
      invariant s == Sum(items[..i])
      invariant (forall j :: 0 <= j < |items| ==> ItemTotal(items[j]) >= 0) ==> s >= 0
    {
      assert items[..i + 1][..i] == items[..i];
      s := s + ItemTotal(items[i]);
      i := i + 1;
    }
    assert items[..i] == items;
  }

  /** The rows with their totals (`wiredCartItems`). */
  function Rows(items: seq<CartItem>): (r: seq<Row>)
    ensures |r| == |items|
    ensures forall i :: 0 <= i < |r| ==> r[i].item == items[i] && r[i].itemTotal == ItemTotal(items[i])
  {
    seq(|items|, i requires 0 <= i < |items| => Row(items[i], ItemTotal(items[i])))
  }

  /** A fresh summary for fetched rows: GST is 18% of the subtotal and the
      grand total is 118% of it; the cart is empty iff there are no rows.
      The order's GST and grand total are then sent to the store. */
  function Load(orderId: string, items: seq<CartItem>): (r: (Summary, TotalsUpdate))
    ensures r.0.rows == Rows(items) && r.0.subTotal == Sum(items)
    ensures r.0.gst == r.0.subTotal as real * 18.0 / 100.0
    ensures r.0.grandTotal == r.0.subTotal as real * 118.0 / 100.0
    ensures r.0.isCartEmpty <==> |items| == 0
    ensures r.1 == TotalsUpdate(orderId, r.0.gst, r.0.grandTotal)
  {
    var sub := Sum(items);
    var gst := sub as real * GstRate;
    var summary := Summary(Rows(items), sub, gst, sub as real + gst, |items| == 0);
    (summary, TotalsUpdate(orderId, summary.gst, summary.grandTotal))
  }

  /** `resetCart`: no rows, all totals zero, the empty flag set. */
  function Reset(): (r: Summary)
    ensures r.rows == [] && r.subTotal == 0 && r.gst == 0.0 && r.grandTotal == 0.0 && r.isCartEmpty
  {
    Summary([], 0, 0.0, 0.0, true)
  }

  /** Resetting shows exactly what loading an empty cart shows. */
  lemma ResetIsEmptyLoad(orderId: string)
    ensures Reset() == Load(orderId, []).0
  {
  }

  /** Adding a row raises the subtotal by that row's total and the grand
      total by 118% of it, and the amount sent to the store follows. */
  lemma {:induction false} LoadAppend(orderId: string, items: seq<CartItem>, x: CartItem)
    ensures Load(orderId, items + [x]).0.subTotal == Load(orderId, items).0.subTotal + ItemTotal(x)
    ensures Load(orderId, items + [x]).0.grandTotal == Load(orderId, items).0.grandTotal + ItemTotal(x) as real * 118.0 / 100.0
    ensures Load(orderId, items + [x]).1.totalAmount == Load(orderId, items).1.totalAmount + ItemTotal(x) as real * 118.0 / 100.0
  {
    assert (items + [x])[..|items|] == items;
  }
}

=== FILE: pubsub.dfy ===
/** The in-session event bus: a registry from event name to the ordered list
    of (callback, thisArg) listeners, and the operations over it. Callbacks
    and receiver objects are compared by identity, so they are modelled by
    opaque handles. */
module PubSub {

  /** Identity of a callback function. */
  type Callback = nat
  /** Identity of the `thisArg` object a callback is bound to. */
  type Receiver = nat

  datatype Listener = Listener(callback: Callback, thisArg: Receiver)

  /** The module-level `events` object. */
  type Registry = map<string, seq<Listener>>

  /** One call `listener.callback.call(listener.thisArg, payload)`. */
  datatype Invocation<P> = Invocation(listener: Listener, payload: P)

  /** The listeners registered for `event`, in registration order. */
  function ListenersFor(reg: Registry, event: string): seq<Listener> {
    if event in reg then reg[event] else []
  }

  /** `list.filter(keep)` for the predicate "is not `x`". */
  function Without(list: seq<Listener>, x: Listener): (r: seq<Listener>)
    ensures |r| <= |list|
    ensures x !in r
    ensures forall y :: y in list && y != x ==> y in r
    ensures forall y :: y in r ==> y in list
  {
    if |list| == 0 then []
    else (if list[0] == x then [] else [list[0]]) + Without(list[1..], x)
  }

  /** `list.filter(l => l.thisArg !== owner)`. */
  function WithoutReceiver(list: seq<Listener>, owner: Receiver): (r: seq<Listener>)
    ensures |r| <= |list|
    ensures forall i :: 0 <= i < |r| ==> r[i].thisArg != owner
  {
    if |list| == 0 then []
    else (if list[0].thisArg == owner then [] else [list[0]]) + WithoutReceiver(list[1..], owner)
  }

  /** `registerListener`: appends the listener to the event's list, creating
      the list on first use; duplicates are kept. */
  function Register(reg: Registry, event: string, callback: Callback, thisArg: Receiver): (r: Registry)
    ensures r.Keys == reg.Keys + {event}
    ensures r[event] == ListenersFor(reg, event) + [Listener(callback, thisArg)]
    ensures forall e :: e in reg && e != event ==> r[e] == reg[e]
  {
    reg[event := ListenersFor(reg, event) + [Listener(callback, thisArg)]]
  }

  /** `unregisterListener`: drops every entry with both this callback and this
      receiver from the event's list; an unknown event is left alone. */
  function Unregister(reg: Registry, event: string, callback: Callback, thisArg: Receiver): (r: Registry)
    ensures event !in reg ==> r == reg
    ensures r.Keys == reg.Keys
    ensures event in reg ==> Listener(callback, thisArg) !in r[event]
    ensures event in reg ==> forall y :: y in reg[event] && y != Listener(callback, thisArg) ==> y in r[event]
    ensures forall e :: e in reg && e != event ==> r[e] == reg[e]
  {
    if event in reg then reg[event := Without(reg[event], Listener(callback, thisArg))] else reg
  }

  /** `unregisterAllListeners`: drops every entry bound to `thisArg` from
      every event's list; the event names stay registered. */
  function UnregisterAll(reg: Registry, thisArg: Receiver): (r: Registry)
    ensures r.Keys == reg.Keys
    ensures forall e :: e in r ==> r[e] == WithoutReceiver(reg[e], thisArg)
    ensures forall e, y :: e in r && y in r[e] ==> y.thisArg != thisArg
  {
    map e | e in reg :: WithoutReceiver(reg[e], thisArg)
  }

  /** Filtering out a listener that was not in a list keeps the list. */
  lemma {:induction false} WithoutAbsent(list: seq<Listener>, x: Listener)
    requires x !in list
    ensures Without(list, x) == list
  {
    if |list| > 0 {
      assert list == [list[0]] + list[1..];
      WithoutAbsent(list[1..], x);
    }
  }

  lemma {:induction false} WithoutConcat(a: seq<Listener>, b: seq<Listener>, x: Listener)
    ensures Without(a + b, x) == Without(a, x) + Without(b, x)
  {
    if |a| == 0 {
      assert a + b == b;
    } else {
      assert (a + b)[1..] == a[1..] + b;
      WithoutConcat(a[1..], b, x);
    }
  }

  /** Dropping a receiver's entries keeps the others in order: the filter
      distributes over concatenation. */
  lemma {:induction false} WithoutReceiverConcat(a: seq<Listener>, b: seq<Listener>, owner: Receiver)
    ensures WithoutReceiver(a + b, owner) == WithoutReceiver(a, owner) + WithoutReceiver(b, owner)
  {
    if |a| == 0 {
      assert a + b == b;
    } else {
      var ab := a + b;
      assert ab[0] == a[0] && ab[1..] == a[1..] + b;
      WithoutReceiverConcat(a[1..], b, owner);
      var rest, tail := WithoutReceiver(a[1..], owner), WithoutReceiver(b, owner);
      if a[0].thisArg == owner {
        assert WithoutReceiver(ab, owner) == rest + tail;
        assert WithoutReceiver(a, owner) == rest;
      } else {
        assert WithoutReceiver(ab, owner) == [a[0]] + (rest + tail);
        assert WithoutReceiver(a, owner) == [a[0]] + rest;
        assert [a[0]] + (rest + tail) == ([a[0]] + rest) + tail;
      }
    }
  }

  /** One entry stays iff it is bound to another receiver. */
  lemma WithoutReceiverSingle(x: Listener, owner: Receiver)
    ensures WithoutReceiver([x], owner) == (if x.thisArg == owner then [] else [x])
  {
    assert [x][1..] == [];
  }

  /** An entry survives iff it is bound to another receiver. */
  lemma {:induction false} WithoutReceiverKeeps(list: seq<Listener>, owner: Receiver)
    ensures forall y :: y in WithoutReceiver(list, owner) <==> y in list && y.thisArg != owner
  {
    if |list| > 0 {
      WithoutReceiverKeeps(list[1..], owner);
      assert list == [list[0]] + list[1..];
    }
  }

  /** A list with no entry bound to the receiver is kept as it is. */
  lemma {:induction false} WithoutReceiverAbsent(list: seq<Listener>, owner: Receiver)
    requires forall i :: 0 <= i < |list| ==> list[i].thisArg != owner
    ensures WithoutReceiver(list, owner) == list
  {
    if |list| > 0 {
      assert list == [list[0]] + list[1..];
      WithoutReceiverAbsent(list[1..], owner);
    }
  }

  /** Registering a listener and then unregistering it restores the registry,
      provided the pair was not already registered for a known event. */
  lemma RegisterThenUnregister(reg: Registry, event: string, callback: Callback, thisArg: Receiver)
    requires event in reg && Listener(callback, thisArg) !in reg[event]
    ensures Unregister(Register(reg, event, callback, thisArg), event, callback, thisArg) == reg
  {
    var x := Listener(callback, thisArg);
    WithoutConcat(reg[event], [x], x);
    WithoutAbsent(reg[event], x);
    assert Without([x], x) == [];
    var r := Unregister(Register(reg, event, callback, thisArg), event, callback, thisArg);
    assert r[event] == reg[event];
    assert forall e :: e in r ==> r[e] == reg[e];
  }

  /** The failing listeners of `list` under `throws`, in order. */
  function Failing(list: seq<Listener>, throws: Listener -> bool): seq<Listener> {
    if |list| == 0 then []
    else Failing(list[..|list| - 1], throws) + (if throws(list[|list| - 1]) then [list[|list| - 1]] else [])
  }

  /** `fireEvent`: calls every listener registered for `event` once, in
      registration order, each with the payload. A listener that throws
      (`throws`) is caught and the loop goes on, so the invocations do not
      depend on `throws`; the registry is an input only and stays as it was. */
  method Fire<P>(reg: Registry, event: string, payload: P, throws: Listener -> bool)
    returns (calls: seq<Invocation<P>>, failed: seq<Listener>)
    ensures |calls| == |ListenersFor(reg, event)|
    ensures forall i :: 0 <= i < |calls| ==> calls[i] == Invocation(ListenersFor(reg, event)[i], payload)
    ensures failed == Failing(ListenersFor(reg, event), throws)
    ensures event !in reg ==> calls == []
  {
    calls, failed := [], [];
    if event in reg {
      var list := reg[event];
      var i := 0;
      while i < |list|
        invariant 0 <= i <= |list|
        invariant |calls| == i
        invariant forall j :: 0 <= j < i ==> calls[j] == Invocation(list[j], payload)
        invariant failed == Failing(list[..i], throws)
      {
        var listener := list[i];
        calls := calls + [Invocation(listener, payload)];
        if throws(listener) {
          failed := failed + [listener];
        }
        assert list[..i + 1][..i] == list[..i];
        i := i + 1;
      }
      assert list[..i] == list;
    }
  }
}

=== FILE: service.dfy ===
/** The service dashboard (waiterPage.js): items with their Prepared and
    Delivered flags and an exact-status filter. */
module Service {
  import opened OrderItems
  import opened Wrappers

  /** An item as displayed by the later, effective `wiredItems`. */
  datatype ServiceItem = ServiceItem(item: OrderItem, isPrepared: bool, isDelivered: bool)

  datatype Page = Page(items: seq<ServiceItem>, selectedStatus: string)

  /** The page starts with no items and the Prepared status selected. */
  function Initial(): (p: Page)
    ensures p.selectedStatus == Prepared && p.items == []
  {
    Page([], Prepared)
  }

  /** The flags: each holds exactly for its status, so never both. */
  function Decorate(item: OrderItem): (r: ServiceItem)
    ensures r.item == item
    ensures r.isPrepared <==> item.status == Prepared
    ensures r.isDelivered <==> item.status == Delivered
    ensures !(r.isPrepared && r.isDelivered)
  {
    ServiceItem(item, item.status == Prepared, item.status == Delivered)
  }

  /** `wiredItems`: fetched items replace the list; a failed fetch keeps it. */
  function Load(p: Page, fetched: Option<seq<OrderItem>>): (r: Page)
    ensures fetched.None? ==> r == p
    ensures fetched.Some? ==> |r.items| == |fetched.value|
    ensures fetched.Some? ==> forall i :: 0 <= i < |r.items| ==> r.items[i] == Decorate(fetched.value[i])
    ensures r.selectedStatus == p.selectedStatus
  {
    match fetched
    case None => p
    case Some(data) => p.(items := seq(|data|, i requires 0 <= i < |data| => Decorate(data[i])))
  }

  /** Items whose status is exactly `status`, in their original order. */
  function Filtered(items: seq<ServiceItem>, status: string): (r: seq<ServiceItem>)
    ensures forall x :: x in r <==> x in items && x.item.status == status
    ensures |r| <= |items|
  {
    if |items| == 0 then []
    else
      var rest := Filtered(items[1..], status);
      if items[0].item.status == status then [items[0]] + rest else rest
  }

  /** The filter keeps order: it distributes over concatenation. */
  lemma {:induction false} FilteredConcat(a: seq<ServiceItem>, b: seq<ServiceItem>, status: string)
    ensures Filtered(a + b, status) == Filtered(a, status) + Filtered(b, status)
  {
    if |a| == 0 {
      assert a + b == b;
    } else {
      var ab := a + b;
      assert ab[0] == a[0] && ab[1..] == a[1..] + b;
      FilteredConcat(a[1..], b, status);
      var head := if a[0].item.status == status then [a[0]] else [];
      assert Filtered(ab, status) == head + Filtered(ab[1..], status);
      assert Filtered(a, status) == head + Filtered(a[1..], status);
    }
  }

  /** The `filteredItems` getter. */
  function FilteredItems(p: Page): (r: seq<ServiceItem>)
    ensures forall x :: x in r <==> x in p.items && x.item.status == p.selectedStatus
  {
    Filtered(p.items, p.selectedStatus)
  }

  /** The `isEmpty` getter: nothing has the selected status. */
  function IsEmpty(p: Page): (r: bool)
    ensures r <==> forall i :: 0 <= i < |p.items| ==> p.items[i].item.status != p.selectedStatus
  {
    var f := FilteredItems(p);
    assert |f| > 0 ==> f[0] in f;
    |f| == 0
  }

  /** `handleStatusChange`. */
  function ChangeStatus(p: Page, status: string): (r: Page)
    ensures r.selectedStatus == status && r.items == p.items
  {
    p.(selectedStatus := status)
  }
}

=== FILE: table_admin.dfy ===
/** The table admin page (manageTable.js): the per-row action menu and the
    toast message touch-up. */
module TableAdmin {
  import Toasts

  /** A table record as listed. */
  datatype TableRecord = TableRecord(id: string, name: string, isDisabled: bool)

  /** A row-menu entry; `caption` is its label, `name` the action it fires. */
  datatype RowAction = RowAction(caption: string, name: string)

  /** A listed row with its menu. */
  datatype TableRow = TableRow(table: TableRecord, rowActions: seq<RowAction>)

  /** The row menu: Generate QR, then Enable or Disable depending on the
      table's state, then Delete. */
  function RowActions(t: TableRecord): (r: seq<RowAction>)
    ensures |r| == 3
    ensures r[0].name == "generate_qr" && r[2].name == "delete_table"
    ensures r[1].name == "enable_table" <==> t.isDisabled
    ensures r[1].name == "disable_table" <==> !t.isDisabled
  {
    [RowAction("Generate QR", "generate_qr"),
     if t.isDisabled then RowAction("Enable Table", "enable_table") else RowAction("Disable Table", "disable_table"),
     RowAction("Delete Table", "delete_table")]
  }

  /** The menu never offers to enable an enabled table or disable a
      disabled one, and its three actions are distinct. */
  lemma RowActionsOfferOnlyTheToggle(t: TableRecord)
    ensures forall a :: a in RowActions(t) && a.name == "enable_table" ==> t.isDisabled
    ensures forall a :: a in RowActions(t) && a.name == "disable_table" ==> !t.isDisabled
    ensures forall i, j :: 0 <= i < j < 3 ==> RowActions(t)[i].name != RowActions(t)[j].name
  {
  }

  /** `wiredTables` with data: every fetched table gets its menu. */
  function WithRowActions(tables: seq<TableRecord>): (r: seq<TableRow>)
    ensures |r| == |tables|
    ensures forall i :: 0 <= i < |r| ==> r[i].table == tables[i] && r[i].rowActions == RowActions(tables[i])
  {
    seq(|tables|, i requires 0 <= i < |tables| => TableRow(tables[i], RowActions(tables[i])))
  }

  /** `showToast`'s message. */
  function ToastMessage(message: string): (r: string)
    ensures r == Toasts.WithRupee(message)
    ensures '$' !in message ==> r == message
  {
    Toasts.WithRupee(message)
  }
}

=== FILE: tables.dfy ===
/** Table and customer records as the agent consoles see them, and the
    derivations both consoles share: occupancy, the unoccupied tables a
    simulated QR scan may pick, and the guard for starting an order. */
module Tables {
  import opened Wrappers

  /** A table record from the visible-tables query. */
  datatype TableRecord = TableRecord(id: string, name: string, assignedCustomer: Option<string>)

  /** A row of a console's table list: the record plus the derived
      `IsOccupied__c` flag. */
  datatype TableRow = TableRow(record: TableRecord, occupied: bool)

  /** A JavaScript truthiness test on an optional id: a missing id and the
      empty string are both falsy. */
  predicate Truthy(id: Option<string>) {
    id.Some? && id.value != ""
  }

  /** A customer assigned to the selected table. */
  datatype Customer = Customer(id: string, name: string, phone: string, email: string, orderInfo: string)

  /** The table list the consoles build from the query result: one row per
      record, in order, marked occupied exactly when a customer is assigned
      (`table.Assigned_Customer__c ? true : false`). */
  function WithOccupancy(records: seq<TableRecord>): (rows: seq<TableRow>)
    ensures |rows| == |records|
    ensures forall i :: 0 <= i < |rows| ==> rows[i].record == records[i]
    ensures forall i :: 0 <= i < |rows| ==> (rows[i].occupied <==> records[i].assignedCustomer.Some? && records[i].assignedCustomer.value != "")
  {
    seq(|records|, i requires 0 <= i < |records| => TableRow(records[i], Truthy(records[i].assignedCustomer)))
  }

  /** The unoccupied rows, in list order (`tables.filter(t => !t.IsOccupied__c)`). */
  function FreeTables(rows: seq<TableRow>): (r: seq<TableRow>)
    ensures |r| <= |rows|
    ensures forall t :: t in r <==> t in rows && !t.occupied
  {
    if |rows| == 0 then []
    else (if rows[0].occupied then [] else [rows[0]]) + FreeTables(rows[1..])
  }

  /** Why starting an order was refused. */
  datatype Refusal = NoTableSelected | NoCustomers

  datatype OrderStart = Refused(why: Refusal) | Started(tableId: string)

  /** The guard of `handleCreateOrder`, the same in both consoles: a table
      must be selected (`!this.selectedTableId` refuses an empty id too) and
      have at least one customer; the order is started for the selected table. */
  function StartOrder(selectedTable: Option<string>, customers: seq<Customer>): (r: OrderStart)
    ensures r.Started? <==> selectedTable.Some? && selectedTable.value != "" && |customers| > 0
    ensures r.Started? ==> r.tableId == selectedTable.value
    ensures selectedTable.None? || selectedTable.value == "" ==> r == Refused(NoTableSelected)
    ensures selectedTable.Some? && selectedTable.value != "" && |customers| == 0 ==> r == Refused(NoCustomers)
  {
    if !Truthy(selectedTable) then Refused(NoTableSelected)
    else if |customers| == 0 then Refused(NoCustomers)
    else Started(selectedTable.value)
  }
}

=== FILE: text.dfy ===
/** String helpers shared by several components: ECMAScript whitespace, `trim`,
    and `String.prototype.replace` with a one-character pattern. */
module Text {

  /** The characters `\s` matches in an ECMAScript regular expression; they are
      also exactly the characters `String.prototype.trim` strips. */
  predicate IsWhitespace(c: char) {
    var n := c as int;
    || n == 0x09 || n == 0x0A || n == 0x0B || n == 0x0C || n == 0x0D || n == 0x20
    || n == 0xA0 || n == 0x1680 || (0x2000 <= n <= 0x200A) || n == 0x2028
    || n == 0x2029 || n == 0x202F || n == 0x205F || n == 0x3000 || n == 0xFEFF
  }

  /** Every character is whitespace. */
  predicate IsBlank(s: string) {
    forall i :: 0 <= i < |s| ==> IsWhitespace(s[i])
  }

  /** Drops leading whitespace. */
  function TrimStart(s: string): (r: string)
    ensures |r| <= |s| && r == s[|s| - |r|..]
    ensures r == [] || !IsWhitespace(r[0])
    ensures IsBlank(s[..|s| - |r|])
  {
    var n := LeadingSpaces(s);
    s[n..]
  }

  /** How many whitespace characters `s` starts with. */
  function LeadingSpaces(s: string): (n: nat)
    ensures n <= |s|
    ensures forall i :: 0 <= i < n ==> IsWhitespace(s[i])
    ensures n < |s| ==> !IsWhitespace(s[n])
  {
    if |s| > 0 && IsWhitespace(s[0]) then
      var m := LeadingSpaces(s[1..]);
      assert forall i :: 1 <= i <= m ==> s[i] == s[1..][i - 1];
      m + 1
    else
      0
  }

  /** Drops trailing whitespace. */
  function TrimEnd(s: string): (r: string)
    ensures |r| <= |s| && r == s[..|r|]
    ensures r == [] || !IsWhitespace(r[|r| - 1])
    ensures IsBlank(s[|r|..])
  {
    if |s| > 0 && IsWhitespace(s[|s| - 1]) then
      var t := TrimEnd(s[..|s| - 1]);
      assert IsBlank(s[|t|..]) by {
        forall i | |t| <= i < |s|
          ensures IsWhitespace(s[i])
        {
          if i < |s| - 1 {
            assert s[i] == s[..|s| - 1][|t|..][i - |t|];
          }
        }
      }
      t
    else
      s
  }

  /** `s.trim()`. */
  function Trim(s: string): string {
    TrimEnd(TrimStart(s))
  }

  /** `s.trim()` is empty exactly when `s` holds only whitespace. */
  lemma TrimEmptyIffBlank(s: string)
    ensures Trim(s) == [] <==> IsBlank(s)
  {
    var t := TrimStart(s);
    if Trim(s) == [] {
      assert IsBlank(t[0..]);
      assert t == [];
      assert s[..|s| - |t|] == s;
    } else {
      var r := Trim(s);
      assert r == t[..|r|];
      assert t == s[|s| - |t|..];
      assert !IsWhitespace(s[|s| - |t| + |r| - 1]);
    }
  }

  /** Index of the first occurrence of `c`, or -1 (`s.indexOf(c)`). */
  function IndexOf(s: string, c: char): (r: int)
    ensures -1 <= r < |s|
    ensures r == -1 <==> c !in s
    ensures 0 <= r ==> s[r] == c && c !in s[..r]
  {
    if |s| == 0 then -1
    else if s[0] == c then 0
    else
      var k := IndexOf(s[1..], c);
      if k == -1 then -1
      else
        assert s[..k + 1] == [s[0]] + s[1..][..k];
        k + 1
  }

  /** Number of occurrences of `c` in `s`. */
  function Occurrences(s: string, c: char): nat {
    if |s| == 0 then 0 else (if s[0] == c then 1 else 0) + Occurrences(s[1..], c)
  }

  lemma {:induction false} OccurrencesConcat(a: string, b: string, c: char)
    ensures Occurrences(a + b, c) == Occurrences(a, c) + Occurrences(b, c)
  {
    if |a| > 0 {
      assert (a + b)[1..] == a[1..] + b;
      OccurrencesConcat(a[1..], b, c);
    } else {
      assert a + b == b;
    }
  }

  lemma {:induction false} OccurrencesAbsent(s: string, c: char)
    requires c !in s
    ensures Occurrences(s, c) == 0
  {
    if |s| > 0 {
      assert s == [s[0]] + s[1..];
      OccurrencesAbsent(s[1..], c);
    }
  }

  lemma OccurrencesThree(a: string, b: string, d: string, c: char)
    ensures Occurrences(a + b + d, c) == Occurrences(a, c) + Occurrences(b, c) + Occurrences(d, c)
  {
    OccurrencesConcat(a + b, d, c);
    OccurrencesConcat(a, b, c);
  }

  /** `s.replace(c, rep)` with a one-character string pattern: only the first
      occurrence of `c` is replaced, and a string without `c` is returned as is. */
  function ReplaceFirst(s: string, c: char, rep: string): (r: string)
    ensures c !in s ==> r == s
    ensures c in s ==> |r| == |s| - 1 + |rep|
    ensures c in s ==> var k := IndexOf(s, c);
      && r[..k] == s[..k] && c !in r[..k]
      && r[k..k + |rep|] == rep
      && r[k + |rep|..] == s[k + 1..]
  {
    var k := IndexOf(s, c);
    if k == -1 then s
    else
      var r := s[..k] + rep + s[k + 1..];
      assert r[..k] == s[..k];
      assert r[k..k + |rep|] == rep;
      assert r[k + |rep|..] == s[k + 1..];
      r
  }

  /** When the replacement does not itself contain `c`, replacing removes
      exactly one occurrence of `c` (and none from a string without `c`). */
  lemma ReplaceFirstRemovesOne(s: string, c: char, rep: string)
    requires c !in rep
    ensures c in s ==> Occurrences(ReplaceFirst(s, c, rep), c) == Occurrences(s, c) - 1
    ensures c !in s ==> Occurrences(ReplaceFirst(s, c, rep), c) == 0
  {
    var k := IndexOf(s, c);
    if k == -1 {
      OccurrencesAbsent(s, c);
    } else {
      var pre, post := s[..k], s[k + 1..];
      ReplaceFirstPieces(s, c, rep);
      OccurrencesThree(pre, [c], post, c);
      OccurrencesThree(pre, rep, post, c);
      OccurrencesAbsent(rep, c);
      OccurrencesOne(c);
    }
  }

  /** Around its first `c`, `s` and its replacement share a prefix and a suffix. */
  lemma ReplaceFirstPieces(s: string, c: char, rep: string)
    requires c in s
    ensures var k := IndexOf(s, c);
      && s == s[..k] + [c] + s[k + 1..]
      && ReplaceFirst(s, c, rep) == s[..k] + rep + s[k + 1..]
  {
    var k := IndexOf(s, c);
    assert s == s[..k] + [c] + s[k + 1..];
  }

  lemma OccurrencesOne(c: char)
    ensures Occurrences([c], c) == 1
  {
    assert [c][1..] == [];
  }
}

=== FILE: toasts.dfy ===
/** The currency touch-up the admin pages apply to toast messages: the first
    `$` becomes the rupee sign. */
module Toasts {
  import opened Text

  /** U+20B9 INDIAN RUPEE SIGN. */
  const Rupee: string := "\U{20B9}"

  /** The message shown for `message`: the first `$` replaced by the rupee
      sign; a message without `$` is shown as it is. */
  function WithRupee(message: string): (r: string)
    ensures '$' !in message ==> r == message
    ensures '$' in message ==> Occurrences(r, '$') == Occurrences(message, '$') - 1
    ensures '$' in message ==> var k := IndexOf(message, '$');
      && r == message[..k] + Rupee + message[k + 1..]
  {
    ReplaceFirstRemovesOne(message, '$', Rupee);
    ReplaceFirst(message, '$', Rupee)
  }

  /** Only the first `$` is replaced: a message with two of them keeps the
      second. */
  lemma OnlyFirstDollarReplaced()
    ensures WithRupee("$5 or $6") == Rupee + "5 or $6"
  {
    assert IndexOf("$5 or $6", '$') == 0;
  }
}

=== FILE: user_page.dfy ===
/** The customer page's cart (user_Page.js): add, increment, decrement,
    load with default statuses, the locked-line view, and placing the order. */
module CustomerCart {
  import opened Wrappers
  import opened CartLines
  import OrderItems

  /** The page state: the store id once loaded, the lines, the displayed
      total and whether the order has been placed. */
  datatype Page = Page(cartId: Option<string>, lines: seq<Line>, total: int, placed: bool)

  /** `recalculateCart`: every line's total recomputed, then the displayed
      total. Whatever totals the lines carried, the page is settled after. */
  function Recalculate(p: Page, lines: seq<Line>): (r: Page)
    ensures Settled(r.lines, r.total)
    ensures |r.lines| == |lines| && forall i :: 0 <= i < |lines| ==> r.lines[i].(total := lines[i].total) == lines[i]
    ensures r.cartId == p.cartId && r.placed == p.placed
  {
    var fixed := RecomputeTotals(lines);
    ConsistentTotalsSumToValue(fixed);
    p.(lines := fixed, total := SumTotals(fixed))
  }

  /** `handleAddToCart`: merge the item, recompute every line total and the
      displayed total, then save the cart. */
  function AddToCart(p: Page, item: Item): (r: (Page, Option<CartUpdate>))
    ensures Settled(r.0.lines, r.0.total)
    ensures QuantityOf(r.0.lines, item.id) == QuantityOf(p.lines, item.id) + 1
    ensures AllConsistent(p.lines) ==> Others(r.0.lines, item.id) == Others(p.lines, item.id)
    ensures UniqueIds(p.lines) ==> UniqueIds(r.0.lines)
    ensures r.0.cartId == p.cartId && r.0.placed == p.placed
    ensures r.1 == Save(r.0)
  {
    var merged := Merge(p.lines, item);
    var r := Recalculate(p, merged);
    assert r.lines == RecomputeTotals(merged);
    assert forall i :: 0 <= i < |merged| ==> r.lines[i].id == merged[i].id && r.lines[i].quantity == merged[i].quantity;
    QuantityOfSameShape(r.lines, merged, item.id);
    assert AllConsistent(p.lines) ==> r.lines == merged by {
      if AllConsistent(p.lines) {
        assert AllConsistent(merged);
      }
    }
    (r, Save(r))
  }

  /** Two line lists that differ at most in their totals hold the same
      quantity of every id. */
  lemma {:induction false} QuantityOfSameShape(a: seq<Line>, b: seq<Line>, id: string)
    requires |a| == |b|
    requires forall i :: 0 <= i < |a| ==> a[i].id == b[i].id && a[i].quantity == b[i].quantity
    ensures QuantityOf(a, id) == QuantityOf(b, id)
  {
    if |a| > 0 {
      QuantityOfSameShape(a[1..], b[1..], id);
    }
  }

  /** `increment` (the id must be in the cart; the page fails otherwise): the
      first line for `id` gains exactly one unit and keeps its total right,
      and the cart is saved. */
  function Increment(p: Page, id: string): (r: (Page, Option<CartUpdate>))
    requires HasId(p.lines, id)
    ensures var k := FindIndex(p.lines, id);
      && |r.0.lines| == |p.lines|
      && r.0.lines[k].quantity == p.lines[k].quantity + 1 && Consistent(r.0.lines[k])
      && forall j :: 0 <= j < |r.0.lines| && j != k ==> r.0.lines[j] == p.lines[j]
    ensures QuantityOf(r.0.lines, id) == QuantityOf(p.lines, id) + 1
    ensures Others(r.0.lines, id) == Others(p.lines, id)
    ensures r.0.total == SumTotals(r.0.lines)
    ensures Settled(p.lines, p.total) ==> Settled(r.0.lines, r.0.total)
    ensures r.0.cartId == p.cartId && r.0.placed == p.placed
    ensures r.1 == Save(r.0)
  {
    var k := FindIndex(p.lines, id);
    var x := Reprice(p.lines[k], p.lines[k].quantity + 1);
    SplitAround(p.lines, k, x, id);
    assert Others([x], id) == [] && Others([p.lines[k]], id) == [];
    var lines := p.lines[k := x];
    assert AllConsistent(p.lines) ==> SumTotals(lines) == Value(lines) by {
      if AllConsistent(p.lines) {
        ConsistentTotalsSumToValue(lines);
      }
    }
    var page := p.(lines := lines, total := SumTotals(lines));
    (page, Save(page))
  }

  /** `decrement` (the id must be in the cart): one unit fewer, deleting the
      line at quantity 1; other lines are unchanged; the cart is saved. */
  function DecrementLine(p: Page, id: string): (r: (Page, Option<CartUpdate>))
    requires HasId(p.lines, id)
    ensures r.0.lines == Decrement(p.lines, id)
    ensures PositiveQuantities(p.lines) ==> QuantityOf(r.0.lines, id) == QuantityOf(p.lines, id) - 1
    ensures Others(r.0.lines, id) == Others(p.lines, id)
    ensures r.0.total == SumTotals(r.0.lines)
    ensures Settled(p.lines, p.total) ==> Settled(r.0.lines, r.0.total)
    ensures r.0.cartId == p.cartId && r.0.placed == p.placed
    ensures r.1 == Save(r.0)
  {
    var lines := Decrement(p.lines, id);
    assert AllConsistent(p.lines) ==> SumTotals(lines) == Value(lines) by {
      if AllConsistent(p.lines) {
        ConsistentTotalsSumToValue(lines);
      }
    }
    var page := p.(lines := lines, total := SumTotals(lines));
    (page, Save(page))
  }

  /** `item.status || 'Pending'`. */
  function WithDefaultStatus(line: Line): Line {
    if line.status == "" then line.(status := OrderItems.Pending) else line
  }

  /** Loaded lines: a missing status becomes Pending, everything else is kept. */
  function DefaultStatuses(lines: seq<Line>): (r: seq<Line>)
    ensures |r| == |lines|
    ensures forall i :: 0 <= i < |r| ==> r[i].status != ""
    ensures forall i :: 0 <= i < |r| ==> r[i].status == (if lines[i].status == "" then OrderItems.Pending else lines[i].status)
    ensures forall i :: 0 <= i < |r| ==> r[i].(status := lines[i].status) == lines[i]
  {
    seq(|lines|, i requires 0 <= i < |lines| => WithDefaultStatus(lines[i]))
  }

  /** `loadCart`: a failed fetch keeps the page. Otherwise the cart id is
      taken; parsed lines get default statuses and recomputed totals; a
      `Completed` cart marks the order placed. A malformed items field stops
      the load after the cart id. */
  function LoadCart(p: Page, fetched: Option<StoredCart>): (r: Page)
    ensures fetched.None? ==> r == p
    ensures fetched.Some? ==> r.cartId == Some(fetched.value.id)
    ensures fetched.Some? && !fetched.value.items.Malformed? ==>
              && Settled(r.lines, r.total)
              && (forall i :: 0 <= i < |r.lines| ==> r.lines[i].status != "")
              && (r.placed <==> p.placed || fetched.value.status == "Completed")
    ensures fetched.Some? && fetched.value.items.Parsed? ==>
              var s := fetched.value.items.value;
              && |r.lines| == |s|
              && forall i :: 0 <= i < |s| ==>
                   && r.lines[i].(status := s[i].status, total := s[i].total) == s[i]
                   && r.lines[i].status == (if s[i].status == "" then OrderItems.Pending else s[i].status)
    ensures fetched.Some? && fetched.value.items.Absent? ==> r.lines == [] && r.total == 0
    ensures fetched.Some? && fetched.value.items.Malformed? ==> r == p.(cartId := Some(fetched.value.id))
  {
    match fetched
    case None => p
    case Some(sc) =>
      var withId := p.(cartId := Some(sc.id));
      match sc.items
      case Malformed => withId
      case Absent =>
        var r := Recalculate(withId, []);
        r.(placed := r.placed || sc.status == "Completed")
      case Parsed(lines) =>
        var r := Recalculate(withId, DefaultStatuses(lines));
        r.(placed := r.placed || sc.status == "Completed")
  }

  /** `saveCart`: the whole line list and total, once a cart is loaded. */
  function Save(p: Page): (r: Option<CartUpdate>)
    ensures r.None? <==> p.cartId.None?
    ensures r.Some? ==> r.value == CartUpdate(p.cartId.value, p.lines, p.total)
  {
    if p.cartId.None? then None else Some(CartUpdate(p.cartId.value, p.lines, p.total))
  }

  /** `placeOrder`: the cart is saved and the page marked placed. */
  function PlaceOrder(p: Page): (r: (Page, Option<CartUpdate>))
    ensures r.0.placed && r.0.lines == p.lines && r.0.total == p.total && r.0.cartId == p.cartId
    ensures r.1 == Save(p)
  {
    (p.(placed := true), Save(p))
  }

  /** The `hasItems` getter. */
  function HasItems(p: Page): (r: bool)
    ensures r <==> |p.lines| > 0
  {
    |p.lines| > 0
  }

  /** `isStatusLocked`: a line still in the kitchen cannot be changed by the
      customer. */
  function IsStatusLocked(status: string): (r: bool)
    ensures r <==> status in {OrderItems.Pending, OrderItems.Preparing, OrderItems.Prepared}
  {
    status == OrderItems.Pending || status == OrderItems.Preparing || status == OrderItems.Prepared
  }

  /** A displayed line and its `isLocked` flag. */
  datatype LineView = LineView(line: Line, isLocked: bool)

  /** `formatCartItems`, without the currency strings. */
  function FormatCartItems(lines: seq<Line>): (r: seq<LineView>)
    ensures |r| == |lines|
    ensures forall i :: 0 <= i < |r| ==> r[i].line == lines[i] && (r[i].isLocked <==> IsStatusLocked(lines[i].status))
  {
    seq(|lines|, i requires 0 <= i < |lines| => LineView(lines[i], IsStatusLocked(lines[i].status)))
  }

  /** A stored line without a status is not locked as it stands, but the
      load gives it Pending, so it is shown locked; Delivered lines are not
      locked. */
  lemma LoadedLinesWithoutStatusAreLocked(p: Page, sc: StoredCart, i: int)
    requires sc.items.Parsed? && 0 <= i < |sc.items.value| && sc.items.value[i].status == ""
    ensures FormatCartItems(LoadCart(p, Some(sc)).lines)[i].isLocked
    ensures !IsStatusLocked("") && !IsStatusLocked(OrderItems.Delivered)
  {
    var r := LoadCart(p, Some(sc));
    assert r.lines[i].status == DefaultStatuses(sc.items.value)[i].status;
  }
}

=== FILE: wrappers.dfy ===
/** Optional values and rejected operations, used for absent record fields,
    failed server calls and client-side validation errors. */
module Wrappers {

  /** A value that may be absent (a missing field, a lookup that found nothing). */
  datatype Option<+T> = None | Some(value: T) {

    /** The value, or `default` when absent (the source's `x || default`). */
    function GetOr(default: T): T {
      match this
      case Some(v) => v
      case None => default
    }
  }

  /** An operation that either produced a value or was rejected with a
      user-visible message; on rejection the caller keeps its prior state. */
  datatype Result<+T> = Success(value: T) | Failure(error: string)

  /** A serialized field read back with `JSON.parse`: missing or empty,
      not parseable into the expected shape (the parse or the following
      `map` throws), or parsed. */
  datatype Json<+T> = Absent | Malformed | Parsed(value: T)
}
